=== FILE: README.md ===
# Doodle Jump clone: a Dafny model of the game core

This project models the core of a small Doodle-Jump-style platformer as
pure Dafny functions and methods, and proves properties about them. The
player falls under gravity and bounces automatically on the platforms it
lands on. Platforms appear in one or two vertical "lanes" run by a path
manager. A platform starts to fade once it has been bounced on and
disappears when the fade ends. The camera eases upwards after the player,
and the game ends once the player drops out of view. A game-over dialog
asks for a name when the score makes the ten-entry high-score table.

The modules follow the program's files:

| module | file | contents |
|---|---|---|
| `Common` | (shared) | `Option`; Python's `int()` on floats (`Trunc`); pygame's integer `Rect` |
| `Random` | (shared) | the random generator as an explicit stream of samples |
| `HighScores` | `src/high_scores.py` | the ranked table, `add_score`, `is_high_score` |
| `Platforms` | `src/platform.py` | construction, back-and-forth motion, the fade |
| `PathManagement` | `src/path_manager.py` | lanes, difficulty, split and reset, placement records |
| `Players` | `src/player.py` | gravity, wrap-around, jump, first-match bounce |
| `Cameras` | `src/camera.py` | the easing camera and the world-to-screen shift |
| `Backgrounds` | `src/background_manager.py` | the piecewise-linear background colour |
| `Game` | `src/main.py` | initial rows, growing and pruning the column, one tick of `update`, input |
| `GameOver` | `src/game_over_modal.py` | buttons, name entry, `strip()`, saving the score |

Modelling choices:

- **Random numbers.** Python's global `random` module is a value of type `Random.Rng`. It is a finite stream of samples, consumed front-first, one sample per call. `randint(lo, hi)` folds a sample outside the range onto the nearer end. `random()` reads a sample outside [0, 1) as 0.0. A stream that has run dry keeps yielding `Sample(0, 0.0)`. Every stream is therefore legal, and the order of the draws is part of the model. For example, `should_split` only draws when there is exactly one lane.
- **Time.** `time.time()` becomes a `now: real` parameter. One tick of `Game.update` reads the clock once.
- **Floats.** Floats are modelled as `real`, without rounding. Python's `int()` is truncation towards zero (`Common.Trunc`). pygame truncates float arguments to `Rect` in the same way.
- **State.** Mutable objects become immutable datatypes. Each method returns the new state, together with the rest of the random stream.
- **The source crash.** `manage_platforms` raises on `min()` of an empty list when pruning keeps no platform and the screen top (the camera offset minus 100) is negative. `Game.ManagePlatforms` takes the negation of that as a precondition (`ManageDefined`). `Game.Update` also returns the state it hands to `manage_platforms`, and returns `None` exactly when that state would make the source raise.

Some behaviours the program does not have, and that the model therefore does not have either:

- Difficulty is linear in height and capped at 2.0. There are no difficulty zones.
- Paths never merge. There are no platform types beyond "normal". There is no forced-normal cadence.
- A split can only happen below height -500.
- `cleanup` resets several lanes to one centred lane on a 10% roll. It never removes lanes that are not viable.
- A moving platform can overshoot its range by one step before it turns round.
- The landing test does not look at a platform's `active` flag.

## Model

| member | source | states |
|---|---|---|
| Common.Trunc | src/player.py:39-40 | Python's `int()` on a float: the integer between 0 and the value, within one of it |
| Random.RandInt | src/path_manager.py:20 | `randint(lo, hi)` always lies in the closed range, takes the sample when it is in range, and consumes exactly one sample |
| Random.RandIntReachesEveryValue | src/path_manager.py:20 | every value of the range is the result of some stream |
| Random.Random01 | src/path_manager.py:41 | `random()` lies in [0, 1), takes an in-range sample, and consumes exactly one sample |
| HighScores.NewHighScore | src/high_scores.py:7-9 | the stored name is the given name cut to its first 20 characters; the score is kept |
| HighScores.InsertPos | src/high_scores.py:88-90 | the insertion point follows every entry scoring at least as much, and precedes one scoring less |
| HighScores.InsertSplits | src/high_scores.py:88-90 | insertion splits the table at the insertion point and changes nothing else |
| HighScores.InsertCount | src/high_scores.py:88-90 | insertion adds exactly the new entry: one more entry and the same multiset plus it |
| HighScores.InsertSorted | src/high_scores.py:88-90 | insertion keeps a best-first table best-first |
| HighScores.SortDesc | src/high_scores.py:88-90 | `_sort_scores` yields a best-first permutation of its input |
| HighScores.InsertAtEnd | src/high_scores.py:88-90 | an entry scoring no more than every entry is placed last (stability) |
| HighScores.SortDescKeepsSorted | src/high_scores.py:88-90 | sorting a best-first table changes nothing (stability) |
| HighScores.SortAfterAppend | src/high_scores.py:72-73 | append-then-sort on a best-first table is a single insertion |
| HighScores.KeepBest | src/high_scores.py:81-82 | the cut to ten keeps a prefix of at most ten entries, all ten when there are more, and keeps the table best-first |
| HighScores.AddScore | src/high_scores.py:64-86 | a score is accepted iff the table has room or the score beats the last entry; a refusal changes nothing; with room the table grows by one; the table never grows past ten; a best-first table stays best-first |
| HighScores.AddScoreEntries | src/high_scores.py:68-84 | with room the new entry is in the table; an accepted score brings in no entry other than the old ones and the new one |
| HighScores.FullTableDropsLast | src/high_scores.py:78-84 | on a full best-first table an accepted score goes in at its rank and the old tenth entry is dropped |
| HighScores.IsHighScore | src/high_scores.py:96-100 | `is_high_score` answers exactly what `add_score` would report, for any name |
| HighScores.OverfullTableDropsNewEntry | src/high_scores.py:78-84 | on a table of more than ten entries, a score above the last entry but not above the tenth is reported as added, yet the table becomes its first ten entries without it |
| HighScores.OverfullTableCanDropNewEntry | src/high_scores.py:78-84 | a concrete twelve-entry table where `add_score` reports success and the new entry is not in the result |
| Platforms.ClampWidth | src/platform.py:41 | the width is clamped to [60, 100], and a width already in range is kept |
| Platforms.NewPlatform | src/platform.py:36-77 | width given or drawn within [60, 100]; moving iff the type starts with "moving_"; speed and range within their jitter bands, scaled by difficulty; fade 1.5 s when moving, else 2 s; starts active, unfaded, heading right at its origin; no draw for a given width and a still type |
| Platforms.WidthFromDraw | src/platform.py:38-41 | a drawn width is 100 - 15*difficulty plus the jitter, clamped |
| Platforms.OnCollision | src/platform.py:108-111 | the first bounce of an active platform starts the fade clock at the current time; an existing start time is kept; nothing else changes |
| Platforms.OnCollisionIdempotent | src/platform.py:108-111 | a second bounce keeps the first start time |
| Platforms.Update | src/platform.py:113-132 | a moving active platform steps by its speed and turns once past its range; others stay put; with the fade running, time up deactivates it and leaves its alpha as it was, and otherwise the alpha falls linearly and stays in (0, 255]; an inactive platform stays inactive; size, origin, type and fade settings are kept |
| Platforms.Cleanup | src/platform.py:165-169 | the platform is switched off and nothing else modelled changes |
| Platforms.UpdateKeepsMotionBounded | src/platform.py:113-120 | motion keeps a platform within one step of its range, heading back whenever it is outside the range |
| Platforms.NewPlatformMotionBounded | src/platform.py:48-65 | a new platform satisfies that motion bound for any non-negative difficulty |
| PathManagement.NewPath | src/path_manager.py:5-10 | a new lane is viable, has the given centre, jitter and difficulty, and fades its platforms in 2 s |
| PathManagement.GetNextX | src/path_manager.py:12-20 | x lies in the lane's range clamped to the screen, drawing one sample; when that range is empty it is the screen centre and nothing is drawn |
| PathManagement.GetNextXReachesRange | src/path_manager.py:14-20 | every x of a non-empty clamped range can be produced |
| PathManagement.NewPathManager | src/path_manager.py:23-28 | a new manager has no lanes and difficulty 1 |
| PathManagement.InitializePath | src/path_manager.py:30-33 | exactly one centred lane of jitter 100; the manager is then live |
| PathManagement.Difficulty | src/path_manager.py:35-37 | difficulty lies in [1, 2], reaches 2 exactly from height 2000 on, and below that is 1 + |h|/2000 |
| PathManagement.DifficultyMonotone | src/path_manager.py:35-37 | climbing further never lowers the difficulty |
| PathManagement.UpdateDifficulty | src/path_manager.py:35-37 | only the difficulty changes, to the value for the height |
| PathManagement.ShouldSplit | src/path_manager.py:39-41 | only a single lane can split; the roll is drawn only then, and succeeds iff it is below 0.2 times the difficulty |
| PathManagement.ShouldSplitMonotone | src/path_manager.py:39-41 | a roll that splits at some difficulty also splits at any higher one |
| PathManagement.SplitPaths | src/path_manager.py:43-55 | one lane becomes two, at the quarter and three-quarter marks with jitter 50; any other count is left alone; liveness is kept |
| PathManagement.Viable | src/path_manager.py:69-70 | the viable lanes, in order; all of them when all are viable |
| PathManagement.Placements | src/path_manager.py:69-77 | one placement record per viable lane, in order, each inside its lane at the given height, difficulty and fade time |
| PathManagement.GetPlatformPositions | src/path_manager.py:57-79 | the difficulty is set from the height; above height -500 the lanes are kept; below it a lone lane splits into the two lanes `split_paths` makes exactly when the `should_split` roll says so, and several lanes are kept; one record per viable lane; a live manager stays live and yields at least one record |
| PathManagement.Cleanup | src/path_manager.py:81-84 | with at most one lane nothing changes and nothing is drawn; with several lanes one number is drawn and the lanes reset to one centred lane of jitter 150 exactly when it is below 0.1, and otherwise nothing changes; liveness is kept |
| PathManagement.AlwaysLive | src/path_manager.py:30-84 | after `initialize_path`, every sequence of manager calls leaves at least one viable lane |
| PathManagement.SplitScenario | src/path_manager.py:57-79 | at height -600 with a winning roll, the single lane splits and one platform appears in each new lane, within 150..250 and 550..650 |
| Players.NewPlayer | src/player.py:4-16 | a new player is at rest, with its rectangle at the given position |
| Players.Move | src/player.py:19-21 | the horizontal speed becomes direction times 5, and the position is unchanged |
| Players.Update | src/player.py:23-40 | gravity is added before the move; x wraps to 760 off the left edge and to 0 past 760, and so always lies in [0, 760] |
| Players.Jump | src/player.py:42-44 | the vertical speed becomes -15 whatever it was, and nothing else changes |
| Players.FirstLanding | src/player.py:57-67 | the first platform in list order that the player lands on, or none |
| Players.CheckPlatformCollision | src/player.py:55-68 | a hit iff some platform is landed on; then only the first such platform starts its fade and the player jumps; otherwise nothing changes |
| Players.FlyHeight | src/player.py:23-30 | closed form of height and vertical speed after n free updates |
| Players.JumpApex | src/player.py:23-44 | after a jump the player rises at most 217.5 units, reaching exactly that after 30 updates |
| Cameras.NewCamera | src/camera.py:4-7 | a new camera has no offset and no target |
| Cameras.Update | src/camera.py:9-15 | the target is 0.6 of the window above the player; the new offset lies between the old offset and the target, leaving 0.9 of the gap on the same side |
| Cameras.ApplyOffset | src/camera.py:17-19 | screen y plus the offset gives back world y |
| Cameras.ApplyOffsetIsShift | src/camera.py:17-19 | the transform keeps distances and order |
| Cameras.FollowGap | src/camera.py:9-15 | with the player still, the gap after n updates is 0.9^n of the first gap |
| Cameras.FollowConverges | src/camera.py:9-15 | each update strictly shrinks the remaining gap until the target is reached |
| Backgrounds.SegmentsDisjoint | src/background_manager.py:54-61 | with strictly rising breakpoints, no score lies in two segments |
| Backgrounds.TableWellFormed | src/background_manager.py:17-33 | the eight breakpoints rise strictly and every colour is valid |
| Backgrounds.Channel | src/background_manager.py:40-42 | factor 0 and 1 give the end values, and in between the channel lies between them |
| Backgrounds.InterpolateColor | src/background_manager.py:35-43 | the same, channel by channel, and valid colours give a valid colour |
| Backgrounds.Progress | src/background_manager.py:58-60 | the progress through a segment lies in [0, 1) |
| Backgrounds.SearchFrom | src/background_manager.py:54-64 | the colour of the segment holding the score, else the first colour |
| Backgrounds.GetBackgroundColor | src/background_manager.py:45-64 | the last colour from 100000 on; the first colour below 0; in between the interpolation over the segment holding the score; always a valid colour |
| Backgrounds.SkyBluePlateau | src/background_manager.py:17-33 | between 5000 and 10000 the colour stays sky blue |
| Game.SpacingFromPhysics | src/main.py:17-21 | the jump height, platform spacing and row gap follow from gravity and jump force |
| Game.RowsWithinJumpReach | src/main.py:18-21 | one jump never rises more than MAX_JUMP_HEIGHT, and rises more than the 144-unit row gap |
| Game.MinY | src/main.py:90 | the minimum y over the platforms is a lower bound attained by one of them |
| Game.BuildRow | src/main.py:97-104 | one fresh normal platform per record, with the record's x and fade time at the given height |
| Game.AddRowAt | src/main.py:93-104 | the list is extended by one platform per viable lane, each placed inside its lane; a live manager stays live and adds at least one platform |
| Game.AddPlatform | src/main.py:84-104 | an empty list is left alone; otherwise a new row goes one row gap above the highest platform, one platform inside each viable lane, fading in that lane's fade time |
| Game.MinYAfterRow | src/main.py:90-91 | the new row becomes the highest |
| Game.GrowAbove | src/main.py:135-137 | every row added by the loop lies above the original column |
| Game.FillAbove | src/main.py:132-137 | the loop's result is the recursive reading `Fill` of the same loop (each step one `add_platform`); rows are added until the highest platform reaches the screen top and no further: nothing is added when it already does, and the last row added lies less than one row gap above the screen top; the old list is a prefix; added rows lie above it |
| Game.FillStep | src/main.py:135-137 | one turn of that loop: the new row, one gap above the highest platform, becomes the highest and keeps the loop invariant |
| Game.FillUnfold | src/main.py:135-137 | below the screen top, `Fill` is one `add_platform` followed by `Fill` on its result, and that call adds a row and keeps the lanes live |
| Game.Prune | src/main.py:124-126 | pruning keeps only platforms above the line, and healthy lists stay healthy |
| Game.PruneMembers | src/main.py:124-126 | a platform survives pruning iff it was in the list and above the line |
| Game.ManagePlatforms | src/main.py:122-137 | afterwards every platform is above the pruning line, the column reaches the screen top and the last row added lies less than one row gap above it, the pruned list is a prefix and the added rows lie above it; the path manager, the platforms and the rest of the random stream are exactly what `cleanup` and then the loop (`Fill`) make of the pruned list; when that list is empty or already reaches the screen top it is the whole result and the manager is what `cleanup` made; only platforms and path manager change; the game invariant holds |
| Game.ExtendedAbove | src/main.py:124-137 | rows added above a pruned healthy list keep it healthy and above the line |
| Game.Survivors | src/main.py:154-159 | the survivors are healthy and no more numerous than the platforms |
| Game.Expired | src/main.py:154-159 | survivors plus removed platforms account for every platform |
| Game.SurvivorsStep | src/main.py:154-159 | visiting one more platform adds it to the survivors if it is still active, and to the removed count otherwise |
| Game.Sweep | src/main.py:154-159 | the loop's result is the recursive reading `SweepFrom` of the same loop (each visit keeps the platform or calls `add_platform` on survivors + unvisited + added); the survivors are exactly the platforms still active after their update, in order; there is one `add_platform` call per removed platform, and the platforms added are at least as many as the calls, except for a lone platform that expires; every added platform lies above every survivor; lanes stay live |
| Game.TurnFacts | src/main.py:155-159 | one visit of the loop keeps the loop invariant `Sweeping`: survivors and call count of the visited prefix, added platforms at least as many as the calls, and all of them above the survivors and the platforms still to visit |
| Game.KeepFacts | src/main.py:155-157 | a visit whose platform stays active keeps that invariant |
| Game.DropFacts | src/main.py:157-159 | a visit whose platform expires keeps that invariant |
| Game.RefillFacts | src/main.py:157-159 | the expired branch: `add_platform` runs once on the list as it stands, keeping the earlier additions as a prefix and adding a fresh row one row gap above that list's highest platform, so above every survivor and every platform still to visit; an empty list gets no row |
| Game.RowJoined | src/main.py:157-159 | the row `add_platform` appended, moved to the end of the added platforms, keeps the earlier ones as a prefix and lies above the survivors and the platforms still to visit |
| Game.NewRowAbove | src/main.py:89-91 | a row placed one row gap above the highest platform of a list lies above every platform of that list |
| Game.Climb | src/main.py:140-149 | the player moves and the camera follows; the best height never drops and the score is its integer part when it rises |
| Game.CollisionKeepsHealth | src/main.py:151-152 | a bounce deactivates no platform |
| Game.Update | src/main.py:139-164 | the state handed to `manage_platforms` satisfies `Landed`: the bounced player, the followed camera, and exactly the platforms and path manager the platform loop leaves, namely the survivors in order followed by at least one added platform per expired one (apart from a lone platform), all above every survivor, with live lanes, nothing else changed; the result is `None` exactly when `manage_platforms` would raise on that state, never while pruning keeps a survivor; otherwise the result differs from that state only in platforms, path manager and running flag, the game invariant is kept, the best height never drops and the score follows it, pruned survivors lead the new list, and the game stops exactly when the player has fallen out of view |
| Game.Land | src/main.py:139-159 | the first half of `update` produces a state satisfying `Landed`, and leaves the rest of the random stream the platform loop leaves |
| Game.Finish | src/main.py:161-164 | `manage_platforms` then the fall check: only platforms, path manager and the running flag change, the pruned platforms lead the new list, the game invariant holds, and the game keeps running exactly when it was and the player has not fallen out of view |
| Game.PruneConcat | src/main.py:124-126 | pruning a concatenation prunes each part |
| Game.HandleEvents | src/main.py:106-120 | running stops iff a quit or Escape event arrives; the held arrow keys set the direction, right winning |
| Game.StartingPlatform | src/main.py:52-57 | a full-width platform centred at y 550 |
| Game.GenerateInitialPlatforms | src/main.py:50-82 | the starting platform plus rows at 450, 306, 162 and 18, each inside the centred lane |
| Game.NewGame | src/main.py:28-48 | a running game with score 0, a fresh camera, the player at the bottom centre, five platforms, and the invariant established |
| GameOver.Press | src/game_over_modal.py:24-32 | motion sets hover to whether the pointer is on the button and never clicks; a press clicks iff the button is hovered |
| GameOver.ClickFollowsPointer | src/game_over_modal.py:24-32 | a press right after a move to (x, y) clicks iff (x, y) is on the button |
| GameOver.TrimStart | src/game_over_modal.py:124 | only leading whitespace is cut, and a non-space is left first |
| GameOver.TrimEnd | src/game_over_modal.py:124 | only trailing whitespace is cut, and a non-space is left last |
| GameOver.StripEnds | src/game_over_modal.py:124 | a stripped string has no whitespace at either end |
| GameOver.StripIsSlice | src/game_over_modal.py:124 | `strip()` returns a slice of its input with only whitespace around it |
| GameOver.StripBlank | src/game_over_modal.py:124 | a string strips to nothing iff it is all whitespace |
| GameOver.StripIdempotent | src/game_over_modal.py:124 | stripping twice is stripping once |
| GameOver.StripUnpadded | src/game_over_modal.py:124 | a string without whitespace at its ends strips to itself |
| GameOver.NewModal | src/game_over_modal.py:35-107 | a new dialog is hidden with nothing typed, and has two unhovered 120x40 buttons 30 above its bottom edge, 40 either side of the centre line |
| GameOver.ButtonsDisjoint | src/game_over_modal.py:87-107 | no point lies on both buttons |
| GameOver.Show | src/game_over_modal.py:109-115 | the dialog is visible with an empty name; a name is asked for iff the score is a high score, and input is on iff a name is asked for |
| GameOver.Hide | src/game_over_modal.py:117-120 | the dialog is hidden, input is off, the name is cleared, and nothing else changes |
| GameOver.SavedName | src/game_over_modal.py:122-124 | the saved name is the stripped name, or "Unknown" when only whitespace was typed; it is never empty or padded |
| GameOver.SaveScore | src/game_over_modal.py:122-125 | the score enters the table under the saved name, and nothing else changes |
| GameOver.EditName | src/game_over_modal.py:141-151 | Enter ends input and turns a blank name into "Unknown"; Backspace drops the last character; other keys append printable text while the name is under 20 characters; nothing else changes |
| GameOver.HandleEvent | src/game_over_modal.py:127-153 | a hidden dialog ignores everything; Retry is reported iff a press arrives while Retry is hovered, and Quit iff Quit is hovered and Retry is not; a click saves iff a name was asked for; other events go to name entry; only the buttons, the name, the input flag and the table can change, so the dialog never hides itself and keeps its score and displayed table |
| GameOver.NameStaysShort | src/game_over_modal.py:141-151 | the name never grows past 20 characters under events carrying at most one character |
| GameOver.SaveAfterShowAdds | src/game_over_modal.py:109-115 | right after `show`, a name is asked for iff `add_score` will accept the score, whatever the name |
| GameOver.BlankNameSavedAsUnknown | src/game_over_modal.py:143-146 | Enter on a blank name stores "Unknown", ends input, and the score is later saved under "Unknown" |

## Left out

- Rendering is not modelled: drawing, surfaces, fonts, colours of platforms and buttons, the direction arrow, and the dialog's `draw`. It has no effect on game state.
- Persistence is not modelled: `load_scores`, `save_scores`, `to_dict`/`from_dict`, the data directory and the entry's timestamp. These are file I/O and the clock. The table is a value passed in, in the order the file gave it.
- pygame initialisation, `run`, `main`, the frame clock and event polling are not modelled. The events of one frame and the held keys are parameters of `Game.HandleEvents`.
- `get_scores` returns the table itself. `GameOver.Show` copies the table into `highScores`, so the Python aliasing, where the displayed list changes after a later save, is not modelled.
- GameOver.IsPrintableChar approximates Python's `str.isprintable`: controls, C1 controls, the soft hyphen, the listed format characters and the non-ASCII separators are non-printable. Unassigned and private-use code points, and other format characters, are treated as printable.
- GameOver.NameStaysShort: holds only for key events whose text is at most one character. pygame gives one character per key press. Longer text appended at length 19 would exceed 20.
- Game.ManagePlatforms: requires `ManageDefined`, which rules out the source's crash on `min()` of an empty list. `Game.Update` returns `None` in that case instead of modelling the exception.
- Platforms.OnCollision: treats an unset fade clock as "not started". The source tests the timer's truthiness, so a start time of exactly 0.0 would count as unset; the model assumes clock readings are non-zero.
- Platforms.Update: ignores float rounding. Alpha and position are exact reals.
- Random.RandInt: out-of-range samples are folded onto the range, so the model fixes one legal stream for any samples, not the Mersenne Twister's distribution.
- Game.Update: one clock reading serves every platform in the tick, whereas the source reads `time.time()` once per platform.
- Floating-point behaviour in general (rounding of `*`, `/` and `int()` on floats) is not modelled; all arithmetic is exact.

=== FILE: background_manager.dfy ===
/** The background colour: piecewise-linear over a table of score
    breakpoints, one colour per breakpoint. */
module Backgrounds {
  import opened Common

  datatype Rgb = Rgb(r: int, g: int, b: int)

  const BeginnerStart := Rgb(152, 251, 152)
  const BeginnerEnd := Rgb(0, 178, 238)
  const IntermediateStart := Rgb(0, 178, 238)
  const IntermediateEnd := Rgb(147, 112, 219)
  const AdvancedStart := Rgb(147, 112, 219)
  const AdvancedEnd := Rgb(178, 34, 34)
  const ExpertStart := Rgb(178, 34, 34)
  const ExpertEnd := Rgb(25, 25, 112)

  datatype Breakpoint = Breakpoint(score: int, color: Rgb)

  /** `transition_points`. */
  const TransitionPoints: seq<Breakpoint> := [
    Breakpoint(0, BeginnerStart),
    Breakpoint(5000, BeginnerEnd),
    Breakpoint(10000, IntermediateStart),
    Breakpoint(25000, IntermediateEnd),
    Breakpoint(40000, AdvancedStart),
    Breakpoint(60000, AdvancedEnd),
    Breakpoint(80000, ExpertStart),
    Breakpoint(100000, ExpertEnd)
  ]

  predicate StrictlyIncreasing(t: seq<Breakpoint>) {
    forall i, j :: 0 <= i < j < |t| ==> t[i].score < t[j].score
  }

  predicate IsChannel(v: int) { 0 <= v <= 255 }

  predicate IsColor(c: Rgb) { IsChannel(c.r) && IsChannel(c.g) && IsChannel(c.b) }

  /** Score `s` falls in segment `i`: from breakpoint i up to, not including, breakpoint i+1. */
  predicate InSegment(t: seq<Breakpoint>, i: int, s: int)
    requires 0 <= i < |t| - 1
  {
    t[i].score <= s < t[i + 1].score
  }

  /** In a table whose breakpoints rise strictly, no score lies in two segments. */
  lemma SegmentsDisjoint(t: seq<Breakpoint>, s: int, i: int, j: int)
    requires StrictlyIncreasing(t)
    requires 0 <= i < |t| - 1 && 0 <= j < |t| - 1
    requires InSegment(t, i, s) && InSegment(t, j, s)
    ensures i == j
  {
  }

  /** The table's breakpoints rise strictly and every colour is a valid colour. */
  lemma TableWellFormed()
    ensures |TransitionPoints| == 8
    ensures StrictlyIncreasing(TransitionPoints)
    ensures forall i :: 0 <= i < |TransitionPoints| ==> IsColor(TransitionPoints[i].color)
  {
  }

  /** One channel of `interpolate_color`, truncated by int(). */
  function Channel(a: int, b: int, factor: real): (v: int)
    ensures factor == 0.0 ==> v == a
    ensures factor == 1.0 ==> v == b
    ensures 0.0 <= factor <= 1.0 ==> MinInt(a, b) <= v <= MaxInt(a, b)
  {
    var exact := a as real + (b - a) as real * factor;
    TruncOfInt(a);
    TruncOfInt(b);
    if 0.0 <= factor <= 1.0 then
      ChannelBetween(a, b, factor);
      Trunc(exact)
    else Trunc(exact)
  }

  lemma ChannelBetween(a: int, b: int, factor: real)
    requires 0.0 <= factor <= 1.0
    ensures MinInt(a, b) as real <= a as real + (b - a) as real * factor <= MaxInt(a, b) as real
  {
  }

  /** `interpolate_color`: channel by channel; factor 0 gives the first
      colour, factor 1 the second, and in between every channel lies
      between the two input channels. */
  function InterpolateColor(c1: Rgb, c2: Rgb, factor: real): (c: Rgb)
    ensures factor == 0.0 ==> c == c1
    ensures factor == 1.0 ==> c == c2
    ensures 0.0 <= factor <= 1.0 ==>
              && MinInt(c1.r, c2.r) <= c.r <= MaxInt(c1.r, c2.r)
              && MinInt(c1.g, c2.g) <= c.g <= MaxInt(c1.g, c2.g)
              && MinInt(c1.b, c2.b) <= c.b <= MaxInt(c1.b, c2.b)
    ensures 0.0 <= factor <= 1.0 && IsColor(c1) && IsColor(c2) ==> IsColor(c)
  {
    Rgb(Channel(c1.r, c2.r, factor), Channel(c1.g, c2.g, factor), Channel(c1.b, c2.b, factor))
  }

  /** How far `s` has come through segment i, as a fraction. */
  function Progress(t: seq<Breakpoint>, i: int, s: int): (p: real)
    requires 0 <= i < |t| - 1
    requires InSegment(t, i, s)
    ensures 0.0 <= p < 1.0
  {
    var num := (s - t[i].score) as real;
    var den := (t[i + 1].score - t[i].score) as real;
    FractionBelowOne(num, den);
    num / den
  }

  /** The loop of `get_background_color` from segment `i` on: the colour
      of the first segment that holds the score, else the first colour. */
  function SearchFrom(t: seq<Breakpoint>, s: int, i: nat): (c: Rgb)
    requires |t| >= 1
    requires StrictlyIncreasing(t)
    ensures forall j :: i <= j < |t| - 1 && InSegment(t, j, s) ==>
              c == InterpolateColor(t[j].color, t[j + 1].color, Progress(t, j, s))
    ensures (forall j :: i <= j < |t| - 1 ==> !InSegment(t, j, s)) ==> c == t[0].color
    ensures (forall j :: 0 <= j < |t| ==> IsColor(t[j].color)) ==> IsColor(c)
    decreases |t| - i
  {
    if i >= |t| - 1 then t[0].color
    else if InSegment(t, i, s) then
      InterpolateColor(t[i].color, t[i + 1].color, Progress(t, i, s))
    else SearchFrom(t, s, i + 1)
  }

  /** `get_background_color(score)`: the last colour from the last
      breakpoint on, the first colour below the first breakpoint, and in
      between the interpolation over the segment holding the score. */
  function GetBackgroundColor(score: int): (c: Rgb)
    ensures score >= 100000 ==> c == ExpertEnd
    ensures score < 0 ==> c == BeginnerStart
    ensures forall i :: 0 <= i < |TransitionPoints| - 1 && InSegment(TransitionPoints, i, score) ==>
              c == InterpolateColor(TransitionPoints[i].color, TransitionPoints[i + 1].color,
                                    Progress(TransitionPoints, i, score))
    ensures IsColor(c)
  {
    TableWellFormed();
    var t := TransitionPoints;
    if score >= t[|t| - 1].score then t[|t| - 1].color
    else SearchFrom(t, score, 0)
  }

  /** Between 5000 and 10000 the background stays sky blue: both ends of
      that segment have the same colour. */
  lemma SkyBluePlateau(score: int)
    requires 5000 <= score < 10000
    ensures GetBackgroundColor(score) == Rgb(0, 178, 238)
  {
  }
}

=== FILE: camera.dfy ===
/** The camera: a vertical offset that eases towards a target above the
    player, and the world-to-screen transform it defines. */
module Cameras {
  import opened Common

  const LerpSpeed: real := 0.1
  /** The target keeps the player this fraction of the window below the top. */
  const TargetFraction: real := 0.6

  datatype Camera = Camera(offsetY: real, targetY: real)

  /** `Camera()`: no offset and no target. */
  function NewCamera(): (c: Camera)
    ensures c.offsetY == 0.0 && c.targetY == 0.0
  {
    Camera(0.0, 0.0)
  }

  function TargetFor(playerY: real, windowHeight: real): real {
    playerY - windowHeight * TargetFraction
  }

  /** `update`: retarget on the player, then close a tenth of the gap.
      The new offset lies between the old one and the target, and the gap
      left is nine tenths of the old one, on the same side. */
  function Update(c: Camera, playerY: real, windowHeight: real): (r: Camera)
    ensures r.targetY == playerY - TargetFraction * windowHeight
    ensures MinReal(c.offsetY, r.targetY) <= r.offsetY <= MaxReal(c.offsetY, r.targetY)
    ensures r.offsetY - r.targetY == 0.9 * (c.offsetY - r.targetY)
    ensures AbsReal(r.offsetY - r.targetY) == 0.9 * AbsReal(c.offsetY - r.targetY)
  {
    var target := TargetFor(playerY, windowHeight);
    Camera(c.offsetY + (target - c.offsetY) * LerpSpeed, target)
  }

  /** `apply_offset`: world to screen; adding the offset back recovers
      the world coordinate, and on a fresh camera the two coincide. */
  function ApplyOffset(c: Camera, worldY: real): (screenY: real)
    ensures screenY + c.offsetY == worldY
    ensures c == NewCamera() ==> screenY == worldY
  {
    worldY - c.offsetY
  }

  /** The transform shifts every point by the same amount: distances and
      order on screen are those in the world. */
  lemma ApplyOffsetIsShift(c: Camera, a: real, b: real)
    ensures ApplyOffset(c, a) - ApplyOffset(c, b) == a - b
    ensures a < b <==> ApplyOffset(c, a) < ApplyOffset(c, b)
  {
  }

  /** `n` updates while the player stays at `playerY`. */
  function Follow(c: Camera, playerY: real, windowHeight: real, n: nat): Camera
    decreases n
  {
    if n == 0 then c else Follow(Update(c, playerY, windowHeight), playerY, windowHeight, n - 1)
  }

  function Pow(b: real, n: nat): real
    decreases n
  {
    if n == 0 then 1.0 else b * Pow(b, n - 1)
  }

  /** With the player still, the gap to the target shrinks by a factor of
      0.9 per update: it never changes side (no overshoot) and it shrinks
      geometrically. */
  lemma {:induction false} FollowGap(c: Camera, playerY: real, windowHeight: real, n: nat)
    ensures Follow(c, playerY, windowHeight, n).offsetY - TargetFor(playerY, windowHeight)
            == Pow(0.9, n) * (c.offsetY - TargetFor(playerY, windowHeight))
    ensures 0.0 < Pow(0.9, n) <= 1.0
    decreases n
  {
    if n > 0 {
      var t := TargetFor(playerY, windowHeight);
      var c1 := Update(c, playerY, windowHeight);
      FollowGap(c1, playerY, windowHeight, n - 1);
      assert c1.offsetY - t == 0.9 * (c.offsetY - t);
      var p := Pow(0.9, n - 1);
      assert p * (0.9 * (c.offsetY - t)) == (0.9 * p) * (c.offsetY - t);
    }
  }

  /** Until the offset reaches the target, each update strictly shrinks the
      remaining gap. */
  lemma FollowConverges(c: Camera, playerY: real, windowHeight: real, n: nat)
    requires c.offsetY != TargetFor(playerY, windowHeight)
    ensures AbsReal(Follow(c, playerY, windowHeight, n + 1).offsetY - TargetFor(playerY, windowHeight))
            < AbsReal(Follow(c, playerY, windowHeight, n).offsetY - TargetFor(playerY, windowHeight))
  {
    var t := TargetFor(playerY, windowHeight);
    FollowGap(c, playerY, windowHeight, n);
    FollowGap(c, playerY, windowHeight, n + 1);
    var d := c.offsetY - t;
    var p := Pow(0.9, n);
    assert Pow(0.9, n + 1) == 0.9 * p;
    if d > 0.0 {
      assert 0.9 * p * d < p * d;
    } else {
      assert 0.9 * p * d > p * d;
    }
  }
}

=== FILE: common.dfy ===
/** Small shared vocabulary: an optional value, Python's int() on floats,
    and pygame's integer rectangle. */
module Common {

  /** A value that may be absent (Python's None). */
  datatype Option<+T> = None | Some(value: T)

  /** Python's int() applied to a float: truncation towards zero. */
  function Trunc(r: real): (n: int)
    ensures r >= 0.0 ==> n as real <= r < n as real + 1.0
    ensures r < 0.0 ==> n as real - 1.0 < r <= n as real
  {
    if r >= 0.0 then r.Floor else -((-r).Floor)
  }

  /** Truncation of a whole number gives that number back. */
  lemma TruncOfInt(n: int)
    ensures Trunc(n as real) == n
  {
  }

  /** A proper fraction of a positive whole lies in [0, 1). */
  lemma FractionBelowOne(num: real, den: real)
    requires 0.0 <= num < den
    ensures 0.0 <= num / den < 1.0
  {
  }

  function MinReal(a: real, b: real): real { if a <= b then a else b }

  function MaxReal(a: real, b: real): real { if a >= b then a else b }

  function MinInt(a: int, b: int): int { if a <= b then a else b }

  function MaxInt(a: int, b: int): int { if a >= b then a else b }

  function AbsReal(r: real): real { if r < 0.0 then -r else r }

  /** pygame.Rect: an integer rectangle; right and bottom are exclusive edges. */
  datatype Rect = Rect(left: int, top: int, width: int, height: int) {

    function Right(): int { left + width }

    function Bottom(): int { top + height }

    /** pygame's collidepoint: the right and bottom edges are outside. */
    predicate CollidePoint(px: int, py: int) {
      left <= px < left + width && top <= py < top + height
    }
  }
}

=== FILE: game.dfy ===
/** The game loop: the spacing constants, the initial rows, growing the
    platform column upwards, pruning, the score, and the game-over test.

    One call of `Update` is one tick. The clock reading `now`, the random
    generator and the input events are parameters; rendering and the
    frame clock are outside the model. */
module Game {
  import opened Common
  import opened Random
  import Platforms
  import PathManagement
  import Players
  import Cameras

  const WindowWidth: int := 800
  const WindowHeight: int := 600
  const Fps: int := 60
  const Gravity: real := 0.5
  const JumpForce: real := -15.0
  /** `MAX_JUMP_HEIGHT`, `PLATFORM_SPACING` and the row gap, evaluated;
      `SpacingFromPhysics` derives them from the physics constants. */
  const MaxJumpHeight: real := 225.0
  const PlatformSpacing: real := 180.0
  const DifficultyHeight: int := 2000
  /** The vertical gap between rows that generation actually uses. */
  const RowGap: real := 144.0
  /** Platforms this far below the window's bottom edge are dropped. */
  const PruneMargin: real := 200.0
  /** New rows are added until the column reaches this far above the window. */
  const GenerateMargin: real := 100.0
  /** The game ends when the player is this far below the window's bottom edge. */
  const GameOverMargin: real := 100.0
  const NormalType: string := "normal"

  /** The continuous-physics apex of a jump: v^2 / 2g. */
  function ApexFor(force: real, gravity: real): real
    requires gravity > 0.0
  {
    (force * force) / (2.0 * gravity)
  }

  /** The spacing constants follow from the physics: the apex of a jump,
      80% of it between platforms, and 80% of that between generated rows. */
  lemma SpacingFromPhysics()
    ensures MaxJumpHeight == ApexFor(JumpForce, Gravity)
    ensures PlatformSpacing == MaxJumpHeight * 0.8
    ensures RowGap == PlatformSpacing * 0.8
  {
  }

  /** Why rows are always reachable: one jump lifts the player 217.5 units
      (the continuous-physics bound MAX_JUMP_HEIGHT is 225), and rows are
      only 144 apart. */
  lemma RowsWithinJumpReach(p: Players.Player, n: nat)
    ensures Gravity == Players.Gravity && JumpForce == Players.JumpForce
    ensures Players.Fly(Players.Jump(p), n).y >= p.y - MaxJumpHeight
    ensures Players.Fly(Players.Jump(p), 30).y < p.y - RowGap
  {
    Players.JumpApex(p, n);
  }

  datatype Game = Game(
    running: bool,
    score: int,
    maxHeight: real,
    camera: Cameras.Camera,
    pathManager: PathManagement.PathManager,
    player: Players.Player,
    platforms: seq<Platforms.Platform>)

  /** Every platform is active and fades in positive time. */
  predicate Healthy(ps: seq<Platforms.Platform>) {
    forall i :: 0 <= i < |ps| ==> ps[i].active && ps[i].fadeDuration > 0.0
  }

  /** What holds between ticks: the path manager has live lanes, and every
      platform is active and fades in positive time. */
  predicate Valid(g: Game) {
    PathManagement.Live(g.pathManager) && Healthy(g.platforms)
  }

  /** `min(p.y for p in platforms)`: the height of the highest platform. */
  function MinY(ps: seq<Platforms.Platform>): (m: real)
    requires |ps| > 0
    ensures forall i :: 0 <= i < |ps| ==> m <= ps[i].y
    ensures exists i :: 0 <= i < |ps| && m == ps[i].y
  {
    if |ps| == 1 then ps[0].y
    else
      var rest := MinY(ps[1..]);
      assert forall i :: 1 <= i < |ps| ==> ps[1..][i - 1] == ps[i];
      MinReal(ps[0].y, rest)
  }

  /** A platform made for lane `lane` at height `y`: a normal platform at a
      whole-number x inside the lane, fresh, fading in the lane's fade time. */
  predicate Placed(p: Platforms.Platform, lane: PathManagement.Path, windowWidth: int, y: real) {
    && p.x == p.x.Floor as real
    && PathManagement.InLane(p.x.Floor, lane, windowWidth)
    && p.y == y
    && p.platformType == NormalType
    && !p.isMoving
    && Platforms.Fresh(p)
    && p.fadeDuration == lane.fadeTime
    && Platforms.MinWidth as real <= p.width <= Platforms.MaxWidth as real
  }

  /** A row of normal platforms at height `y`, one per placement record,
      each taking the record's x, difficulty and fade time. */
  function BuildRow(positions: seq<PathManagement.Position>, y: real, g: Rng): (r: Drawn<seq<Platforms.Platform>>)
    ensures |r.value| == |positions|
    ensures forall i :: 0 <= i < |positions| ==>
              && r.value[i].y == y
              && r.value[i].x == positions[i].x as real
              && r.value[i].fadeDuration == positions[i].fadeTime
              && r.value[i].platformType == NormalType
              && !r.value[i].isMoving
              && Platforms.Fresh(r.value[i])
              && Platforms.MinWidth as real <= r.value[i].width <= Platforms.MaxWidth as real
  {
    if |positions| == 0 then Drawn([], g)
    else
      var made := Platforms.NewPlatform(positions[0].x as real, y, positions[0].difficulty, None, NormalType, g);
      var p := made.value.(fadeDuration := positions[0].fadeTime);
      var more := BuildRow(positions[1..], y, made.rest);
      Drawn([p] + more.value, more.rest)
  }

  /** The platforms and path manager after growing the column. */
  datatype Grown = Grown(pathManager: PathManagement.PathManager, platforms: seq<Platforms.Platform>, rest: Rng)

  /** The platforms from index `from` on form one fresh, healthy row at height `y`. */
  predicate FreshFrom(ps: seq<Platforms.Platform>, from: int, y: real)
    requires 0 <= from <= |ps|
  {
    forall i :: from <= i < |ps| ==> ps[i].y == y && Platforms.Fresh(ps[i]) && ps[i].fadeDuration > 0.0
  }

  /** The inner loop shared by `generate_initial_platforms` and
      `add_platform`: ask the path manager for positions at `height` and
      append one platform per position. */
  function AddRowAt(pm: PathManagement.PathManager, ps: seq<Platforms.Platform>, height: real, g: Rng): (r: Grown)
    ensures |r.platforms| == |ps| + |PathManagement.Viable(r.pathManager.paths)|
    ensures r.platforms[..|ps|] == ps
    ensures forall i :: |ps| <= i < |r.platforms| ==>
              Placed(r.platforms[i], PathManagement.Viable(r.pathManager.paths)[i - |ps|], pm.windowWidth, height)
    ensures r.pathManager.difficulty == PathManagement.Difficulty(height)
    ensures r.pathManager.windowWidth == pm.windowWidth
    ensures height >= PathManagement.SplitHeight ==> r.pathManager.paths == pm.paths
    ensures PathManagement.Live(pm) ==>
              PathManagement.Live(r.pathManager) && |r.platforms| > |ps| && FreshFrom(r.platforms, |ps|, height)
  {
    var gen := PathManagement.GetPlatformPositions(pm, height, g);
    var row := BuildRow(gen.positions, height, gen.rest);
    assert (ps + row.value)[..|ps|] == ps;
    assert forall i :: |ps| <= i < |ps| + |row.value| ==> (ps + row.value)[i] == row.value[i - |ps|];
    Grown(gen.manager, ps + row.value, row.rest)
  }

  /** `add_platform`: nothing on an empty list; otherwise one new row a
      row gap above the highest platform. */
  function AddPlatform(pm: PathManagement.PathManager, ps: seq<Platforms.Platform>, g: Rng): (r: Grown)
    ensures |ps| == 0 ==> r == Grown(pm, ps, g)
    ensures |ps| > 0 ==>
              && |r.platforms| == |ps| + |PathManagement.Viable(r.pathManager.paths)|
              && r.platforms[..|ps|] == ps
              && r.pathManager.difficulty == PathManagement.Difficulty(MinY(ps) - RowGap)
              && forall i :: |ps| <= i < |r.platforms| ==>
                   Placed(r.platforms[i], PathManagement.Viable(r.pathManager.paths)[i - |ps|], pm.windowWidth, MinY(ps) - RowGap)
    ensures |ps| > 0 && PathManagement.Live(pm) ==>
              PathManagement.Live(r.pathManager) && |r.platforms| > |ps| && FreshFrom(r.platforms, |ps|, MinY(ps) - RowGap)
  {
    if |ps| == 0 then Grown(pm, ps, g)
    else AddRowAt(pm, ps, MinY(ps) - RowGap, g)
  }

  /** Adding a row a gap above the highest platform makes that row the highest. */
  lemma MinYAfterRow(ps: seq<Platforms.Platform>, n: nat, y: real)
    requires 0 < n < |ps|
    requires FreshFrom(ps, n, y)
    requires y < MinY(ps[..n])
    ensures MinY(ps) == y
  {
    forall k | 0 <= k < n
      ensures ps[k].y > y
    {
      assert ps[..n][k] == ps[k];
    }
    var m := MinY(ps);
    var k :| 0 <= k < |ps| && m == ps[k].y;
    assert m <= ps[n].y;
  }

  /** The platforms past `from` all lie above `y`, fresh and healthy. */
  predicate FreshAbove(ps: seq<Platforms.Platform>, from: int, y: real)
    requires 0 <= from <= |ps|
  {
    forall i :: from <= i < |ps| ==> ps[i].y < y && Platforms.Fresh(ps[i]) && ps[i].fadeDuration > 0.0
  }

  /** One more row above a column already grown from `ps`: everything
      past `ps` still lies above it. */
  lemma GrowAbove(ps: seq<Platforms.Platform>, cur: seq<Platforms.Platform>, a: seq<Platforms.Platform>)
    requires 0 < |ps| <= |cur| < |a|
    requires a[..|cur|] == cur && cur[..|ps|] == ps
    requires FreshAbove(cur, |ps|, MinY(ps))
    requires FreshFrom(a, |cur|, MinY(cur) - RowGap)
    ensures a[..|ps|] == ps
    ensures FreshAbove(a, |ps|, MinY(ps))
  {
  }

  lemma FloorShift(d: real)
    ensures (d - RowGap).Floor == d.Floor - 144
  {
  }

  /** The loop of `manage_platforms` unrolled as a recursion: while the
      highest platform is below `screenTop`, `add_platform` once more.
      The path manager is live, so every call adds a row one gap higher. */
  function Fill(pm: PathManagement.PathManager, ps: seq<Platforms.Platform>, screenTop: real, g: Rng): Grown
    requires PathManagement.Live(pm)
    requires |ps| > 0
    decreases if MinY(ps) > screenTop then (MinY(ps) - screenTop).Floor + 1 else 0
  {
    if MinY(ps) <= screenTop then Grown(pm, ps, g)
    else
      var a := AddPlatform(pm, ps, g);
      MinYAfterRow(a.platforms, |ps|, MinY(ps) - RowGap);
      FloorShift(MinY(ps) - screenTop);
      Fill(a.pathManager, a.platforms, screenTop, a.rest)
  }

  /** The loop of `manage_platforms`, as `Fill` describes it: add rows
      until the highest platform is at or above `screenTop`, and no more:
      the last row added is less than one row gap above it. */
  method FillAbove(pm: PathManagement.PathManager, ps: seq<Platforms.Platform>, screenTop: real, g: Rng)
    returns (r: Grown)
    requires PathManagement.Live(pm)
    requires |ps| > 0
    ensures PathManagement.Live(r.pathManager)
    ensures |r.platforms| >= |ps| && r.platforms[..|ps|] == ps
    ensures MinY(r.platforms) <= screenTop
    ensures MinY(ps) <= screenTop ==> r == Grown(pm, ps, g)
    ensures |r.platforms| > |ps| ==> MinY(r.platforms) > screenTop - RowGap
    ensures FreshAbove(r.platforms, |ps|, MinY(ps))
    ensures r == Fill(pm, ps, screenTop, g)
  {
    r := Grown(pm, ps, g);
    assert ps[..|ps|] == ps;
    while MinY(r.platforms) > screenTop
      invariant Filling(pm, ps, screenTop, g, r)
      invariant Fill(r.pathManager, r.platforms, screenTop, r.rest) == Fill(pm, ps, screenTop, g)
      decreases if MinY(r.platforms) > screenTop then (MinY(r.platforms) - screenTop).Floor + 1 else 0
    {
      var a := AddPlatform(r.pathManager, r.platforms, r.rest);
      FillStep(pm, ps, screenTop, g, r, a);
      FillUnfold(r.pathManager, r.platforms, screenTop, r.rest);
      FloorShift(MinY(r.platforms) - screenTop);
      r := a;
    }
  }

  /** The loop invariant of `FillAbove`: the column `r` grown so far from
      `ps` keeps `ps` as a prefix with fresh platforms above it, reaches
      less than a row gap past `screenTop` once grown. */
  predicate Filling(pm: PathManagement.PathManager, ps: seq<Platforms.Platform>, screenTop: real, g: Rng, r: Grown)
    requires |ps| > 0
  {
    && PathManagement.Live(pm)
    && PathManagement.Live(r.pathManager)
    && |r.platforms| >= |ps| && r.platforms[..|ps|] == ps
    && FreshAbove(r.platforms, |ps|, MinY(ps))
    && (MinY(ps) <= screenTop ==> r == Grown(pm, ps, g))
    && (|r.platforms| > |ps| ==> MinY(r.platforms) > screenTop - RowGap)
  }

  /** One step of `Fill` on a column below `screenTop`. */
  lemma FillUnfold(pm: PathManagement.PathManager, ps: seq<Platforms.Platform>, screenTop: real, g: Rng)
    requires PathManagement.Live(pm) && |ps| > 0 && MinY(ps) > screenTop
    ensures var a := AddPlatform(pm, ps, g);
            && |a.platforms| > |ps| && PathManagement.Live(a.pathManager)
            && Fill(pm, ps, screenTop, g) == Fill(a.pathManager, a.platforms, screenTop, a.rest)
  {
  }

  /** One turn of the loop of `FillAbove`: `add_platform` puts a row one
      gap above the highest platform and keeps the invariant. */
  lemma FillStep(pm: PathManagement.PathManager, ps: seq<Platforms.Platform>, screenTop: real, g: Rng, r: Grown, a: Grown)
    requires |ps| > 0 && Filling(pm, ps, screenTop, g, r)
    requires MinY(r.platforms) > screenTop
    requires PathManagement.Live(a.pathManager)
    requires |a.platforms| > |r.platforms| && a.platforms[..|r.platforms|] == r.platforms
    requires FreshFrom(a.platforms, |r.platforms|, MinY(r.platforms) - RowGap)
    ensures Filling(pm, ps, screenTop, g, a)
    ensures MinY(a.platforms) == MinY(r.platforms) - RowGap
  {
    var highest := MinY(r.platforms);
    MinYAfterRow(a.platforms, |r.platforms|, highest - RowGap);
    GrowAbove(ps, r.platforms, a.platforms);
  }

  /** The platforms of `ps` above the `limit` line (y < limit), in order. */
  function Prune(ps: seq<Platforms.Platform>, limit: real): (r: seq<Platforms.Platform>)
    ensures |r| <= |ps|
    ensures forall i :: 0 <= i < |r| ==> r[i].y < limit
    ensures Healthy(ps) ==> Healthy(r)
  {
    if |ps| == 0 then []
    else
      var rest := Prune(ps[1..], limit);
      assert forall i :: 1 <= i < |ps| ==> ps[i] == ps[1..][i - 1];
      if ps[0].y < limit then [ps[0]] + rest else rest
  }

  /** Pruning keeps exactly the platforms above the line. */
  lemma {:induction false} PruneMembers(ps: seq<Platforms.Platform>, limit: real)
    ensures forall p :: p in Prune(ps, limit) <==> p in ps && p.y < limit
  {
    if |ps| > 0 {
      PruneMembers(ps[1..], limit);
      assert ps == [ps[0]] + ps[1..];
    }
  }

  /** `min_height` of `manage_platforms`: the pruning line. */
  function PruneLine(c: Cameras.Camera): real {
    c.offsetY + WindowHeight as real + PruneMargin
  }

  /** `screen_top` of `manage_platforms`: how high the column must reach. */
  function ScreenTop(c: Cameras.Camera): real {
    c.offsetY - GenerateMargin
  }

  /** `manage_platforms` raises on `min` of an empty list exactly when
      pruning keeps no platform and `screen_top` (the camera offset minus
      100) is negative. */
  predicate ManageDefined(g: Game) {
    |Prune(g.platforms, PruneLine(g.camera))| > 0 || 0.0 <= ScreenTop(g.camera)
  }

  datatype Tick = Tick(game: Game, rest: Rng)

  /** `manage_platforms`: drop what has fallen below the pruning line, let
      the path manager clean up, then add rows until the column reaches
      the screen top. */
  method ManagePlatforms(g: Game, rng: Rng) returns (r: Tick)
    requires Valid(g)
    requires ManageDefined(g)
    ensures Valid(r.game)
    ensures forall i :: 0 <= i < |r.game.platforms| ==> r.game.platforms[i].y < PruneLine(g.camera)
    ensures |r.game.platforms| > 0 ==> MinY(r.game.platforms) <= ScreenTop(g.camera)
    ensures var kept := Prune(g.platforms, PruneLine(g.camera));
            |r.game.platforms| >= |kept| && r.game.platforms[..|kept|] == kept
    ensures var kept := Prune(g.platforms, PruneLine(g.camera));
            |kept| > 0 ==> FreshAbove(r.game.platforms, |kept|, MinY(kept))
    ensures var kept := Prune(g.platforms, PruneLine(g.camera));
            |r.game.platforms| > |kept| ==> MinY(r.game.platforms) > ScreenTop(g.camera) - RowGap
    ensures var kept := Prune(g.platforms, PruneLine(g.camera));
            (|kept| == 0 || MinY(kept) <= ScreenTop(g.camera)) ==>
              && r.game.platforms == kept
              && r.game.pathManager == PathManagement.Cleanup(g.pathManager, PruneLine(g.camera), rng).value
              && r.rest == PathManagement.Cleanup(g.pathManager, PruneLine(g.camera), rng).rest
    ensures var kept := Prune(g.platforms, PruneLine(g.camera));
            var cleaned := PathManagement.Cleanup(g.pathManager, PruneLine(g.camera), rng);
            |kept| > 0 ==>
              var grown := Fill(cleaned.value, kept, ScreenTop(g.camera), cleaned.rest);
              && r.game.platforms == grown.platforms
              && r.game.pathManager == grown.pathManager
              && r.rest == grown.rest
    ensures r.game == g.(pathManager := r.game.pathManager, platforms := r.game.platforms)
  {
    var line := PruneLine(g.camera);
    var kept := Prune(g.platforms, line);
    var cleaned := PathManagement.Cleanup(g.pathManager, line, rng);
    if |kept| == 0 {
      assert kept[..0] == kept;
      return Tick(g.(pathManager := cleaned.value, platforms := kept), cleaned.rest);
    }
    var filled := FillAbove(cleaned.value, kept, ScreenTop(g.camera), cleaned.rest);
    ExtendedAbove(kept, filled.platforms, line);
    r := Tick(g.(pathManager := filled.pathManager, platforms := filled.platforms), filled.rest);
  }

  /** A healthy list below `line`, extended by fresh platforms above its
      highest one, stays healthy and below `line`. */
  lemma ExtendedAbove(kept: seq<Platforms.Platform>, all: seq<Platforms.Platform>, line: real)
    requires 0 < |kept| <= |all| && all[..|kept|] == kept
    requires Healthy(kept)
    requires forall i :: 0 <= i < |kept| ==> kept[i].y < line
    requires FreshAbove(all, |kept|, MinY(kept))
    ensures Healthy(all)
    ensures forall i :: 0 <= i < |all| ==> all[i].y < line
  {
    forall i | 0 <= i < |all|
      ensures all[i].active && all[i].fadeDuration > 0.0 && all[i].y < line
    {
      if i < |kept| {
        assert all[i] == kept[i];
      } else {
        assert kept[0].y < line;
      }
    }
  }

  /** The platforms of `todo` still active once updated, updated, in order. */
  function Survivors(todo: seq<Platforms.Platform>, now: real): (r: seq<Platforms.Platform>)
    requires Healthy(todo)
    ensures |r| <= |todo|
    ensures Healthy(r)
  {
    if |todo| == 0 then []
    else
      var before := todo[..|todo| - 1];
      var p := Platforms.Update(todo[|todo| - 1], now);
      Survivors(before, now) + (if p.active then [p] else [])
  }

  /** How many platforms of `todo` go inactive when updated. */
  function Expired(todo: seq<Platforms.Platform>, now: real): (n: nat)
    requires Healthy(todo)
    ensures n + |Survivors(todo, now)| == |todo|
  {
    if |todo| == 0 then 0
    else Expired(todo[..|todo| - 1], now) + (if Platforms.Update(todo[|todo| - 1], now).active then 0 else 1)
  }

  /** Extending the visited prefix by one platform adds that platform,
      updated, to the survivors when it is still active, and to the
      expired count otherwise. */
  lemma SurvivorsStep(ps: seq<Platforms.Platform>, i: nat, now: real)
    requires i < |ps| && Healthy(ps)
    ensures Healthy(ps[..i]) && Healthy(ps[..i + 1])
    ensures var p := Platforms.Update(ps[i], now);
            && Survivors(ps[..i + 1], now) == Survivors(ps[..i], now) + (if p.active then [p] else [])
            && Expired(ps[..i + 1], now) == Expired(ps[..i], now) + (if p.active then 0 else 1)
  {
    HealthySlice(ps, 0, i);
    HealthySlice(ps, 0, i + 1);
    assert ps[..i + 1][..i] == ps[..i];
    assert ps[..i + 1][i] == ps[i];
  }

  /** The outcome of the platform loop of `update`: the survivors, the
      platforms added, and how many `add_platform` calls were made. */
  datatype Swept = Swept(
    kept: seq<Platforms.Platform>,
    added: seq<Platforms.Platform>,
    pathManager: PathManagement.PathManager,
    rest: Rng,
    calls: nat)

  /** A fresh row is healthy. */
  lemma FreshRowHealthy(a: seq<Platforms.Platform>, n: nat, y: real)
    requires n <= |a|
    requires FreshFrom(a, n, y)
    ensures Healthy(a[n..])
  {
  }

  /** Healthy lists concatenate to a healthy list. */
  lemma ConcatHealthy(a: seq<Platforms.Platform>, b: seq<Platforms.Platform>)
    requires Healthy(a) && Healthy(b)
    ensures Healthy(a + b)
  {
  }

  /** A slice of a healthy list is healthy. */
  lemma HealthySlice(ps: seq<Platforms.Platform>, i: nat, j: nat)
    requires i <= j <= |ps|
    requires Healthy(ps)
    ensures Healthy(ps[i..j])
  {
  }

  /** The platform loop of `update`, over a copy of the list: update each
      platform; when one goes inactive, remove it and call `add_platform`
      on the list as it stands (survivors so far, platforms not yet
      visited, platforms added so far). The survivors are exactly the
      platforms still active after their update, and there is one
      `add_platform` call per platform removed, each adding at least one
      platform. The one exception is a lone platform that expires: the list
      is then empty when `add_platform` runs, and it adds nothing. The
      result is the one `SweepFrom` gives. */
  method Sweep(ps: seq<Platforms.Platform>, pm: PathManagement.PathManager, now: real, g: Rng) returns (r: Swept)
    requires Healthy(ps)
    requires PathManagement.Live(pm)
    ensures r.kept == Survivors(ps, now)
    ensures r.calls == Expired(ps, now)
    ensures |r.kept| + r.calls == |ps|
    ensures Healthy(r.kept) && Healthy(r.added)
    ensures PathManagement.Live(r.pathManager)
    ensures |r.added| >= r.calls || (|ps| == 1 && r.calls == 1 && r.added == [])
    ensures Above(r.added, r.kept)
    ensures r == SweepFrom(ps, 0, now, Swept([], [], pm, g, 0))
  {
    r := Swept([], [], pm, g, 0);
    var i := 0;
    assert ps[0..] == ps;
    while i < |ps|
      invariant 0 <= i <= |ps|
      invariant Sweeping(r, ps, i, now)
      invariant SweepFrom(ps, i, now, r) == SweepFrom(ps, 0, now, Swept([], [], pm, g, 0))
    {
      TurnFacts(r, ps, i, now);
      r := Turn(r, Platforms.Update(ps[i], now), ps[i + 1..]);
      i := i + 1;
    }
    assert ps[..i] == ps;
  }

  /** The platform loop of `update` read as a recursion from index `i`
      on, with `r` what the visits before `i` produced. */
  function SweepFrom(ps: seq<Platforms.Platform>, i: nat, now: real, r: Swept): Swept
    requires i <= |ps| && Healthy(ps)
    decreases |ps| - i
  {
    if i == |ps| then r
    else SweepFrom(ps, i + 1, now, Turn(r, Platforms.Update(ps[i], now), ps[i + 1..]))
  }

  /** One visit of the loop, on the platform `p` after its update, with
      `pending` the platforms not yet visited: an active platform joins
      the survivors, an inactive one is dropped and `add_platform` runs. */
  function Turn(r: Swept, p: Platforms.Platform, pending: seq<Platforms.Platform>): Swept {
    if p.active then r.(kept := r.kept + [p]) else Refilled(r, pending)
  }

  /** The expired branch of a visit: `add_platform` runs once on the list
      as it stands (survivors so far, platforms not yet visited, platforms
      added so far), and the row it appends joins the added platforms. */
  function Refilled(r: Swept, pending: seq<Platforms.Platform>): Swept {
    var current := r.kept + pending + r.added;
    var a := AddPlatform(r.pathManager, current, r.rest);
    Swept(r.kept, r.added + a.platforms[|current|..], a.pathManager, a.rest, r.calls + 1)
  }

  /** The loop invariant of `Sweep` after visiting `ps[..i]`: the
      survivors and the count of `add_platform` calls are those of the
      prefix visited, the lanes are live, the platforms added are at least
      as many as the calls (bar a lone expired platform), and they lie
      above both the survivors and the platforms not yet visited. */
  predicate Sweeping(r: Swept, ps: seq<Platforms.Platform>, i: nat, now: real)
    requires i <= |ps| && Healthy(ps)
  {
    && Healthy(ps[..i])
    && r.kept == Survivors(ps[..i], now) && r.calls == Expired(ps[..i], now)
    && Healthy(r.kept) && Healthy(r.added)
    && PathManagement.Live(r.pathManager)
    && |r.kept| + r.calls == i
    && (|r.added| >= r.calls || (i == 1 && |ps| == 1 && r.calls == 1 && r.added == []))
    && Above(r.added, r.kept) && Above(r.added, ps[i..])
  }

  /** One visit of the loop in `Sweep`, stated on the prefix of the list
      visited so far: the survivors and the count of `add_platform` calls
      extend by the next platform, and the added rows stay above both the
      survivors and the platforms not yet visited. */
  lemma TurnFacts(r: Swept, ps: seq<Platforms.Platform>, i: nat, now: real)
    requires i < |ps| && Healthy(ps)
    requires Sweeping(r, ps, i, now)
    ensures Sweeping(Turn(r, Platforms.Update(ps[i], now), ps[i + 1..]), ps, i + 1, now)
  {
    SurvivorsStep(ps, i, now);
    HealthySlice(ps, i + 1, |ps|);
    AboveStep(r.added, ps, i, now);
    if Platforms.Update(ps[i], now).active {
      KeepFacts(r, ps, i, now);
    } else {
      DropFacts(r, ps, i, now);
    }
  }

  /** A visit that keeps its platform keeps the invariant. */
  lemma KeepFacts(r: Swept, ps: seq<Platforms.Platform>, i: nat, now: real)
    requires i < |ps| && Healthy(ps) && Healthy(ps[..i + 1]) && Healthy(ps[i + 1..])
    requires Sweeping(r, ps, i, now)
    requires var p := Platforms.Update(ps[i], now);
             && p.active
             && Survivors(ps[..i + 1], now) == Survivors(ps[..i], now) + [p]
             && Expired(ps[..i + 1], now) == Expired(ps[..i], now)
             && Above(r.added, [p]) && Above(r.added, ps[i + 1..])
    ensures Sweeping(Turn(r, Platforms.Update(ps[i], now), ps[i + 1..]), ps, i + 1, now)
  {
    var p := Platforms.Update(ps[i], now);
    AboveJoin(r.added, r.kept, [p]);
    ConcatHealthy(r.kept, [p]);
  }

  /** A visit that drops its platform keeps the invariant. */
  lemma DropFacts(r: Swept, ps: seq<Platforms.Platform>, i: nat, now: real)
    requires i < |ps| && Healthy(ps) && Healthy(ps[..i + 1]) && Healthy(ps[i + 1..])
    requires Sweeping(r, ps, i, now)
    requires var p := Platforms.Update(ps[i], now);
             && !p.active
             && Survivors(ps[..i + 1], now) == Survivors(ps[..i], now)
             && Expired(ps[..i + 1], now) == Expired(ps[..i], now) + 1
             && Above(r.added, ps[i + 1..])
    ensures Sweeping(Turn(r, Platforms.Update(ps[i], now), ps[i + 1..]), ps, i + 1, now)
  {
    RefillFacts(r, ps[i + 1..]);
  }

  /** The expired branch: the earlier additions stay a prefix, and the new
      row sits one row gap above the highest platform of the list as it
      stands, so above every survivor and every platform still to visit.
      An empty list gets no row. */
  lemma RefillFacts(r: Swept, pending: seq<Platforms.Platform>)
    requires Healthy(r.kept) && Healthy(r.added) && Healthy(pending)
    requires PathManagement.Live(r.pathManager)
    requires Above(r.added, r.kept) && Above(r.added, pending)
    ensures var r' := Refilled(r, pending);
            var current := r.kept + pending + r.added;
            && r'.kept == r.kept && r'.calls == r.calls + 1
            && |r'.added| >= |r.added| && r'.added[..|r.added|] == r.added
            && (|current| == 0 ==> r'.added == r.added)
            && (|current| > 0 ==> |r'.added| > |r.added| && FreshFrom(r'.added, |r.added|, MinY(current) - RowGap))
            && Healthy(r'.added)
            && PathManagement.Live(r'.pathManager)
            && Above(r'.added, r'.kept) && Above(r'.added, pending)
  {
    var current := r.kept + pending + r.added;
    if |current| > 0 {
      RowJoined(r.kept, pending, r.added, AddPlatform(r.pathManager, current, r.rest).platforms);
    }
  }

  /** The new row `add_platform` put after the list `kept + pending + added`,
      moved onto the end of `added`: the earlier additions stay a prefix,
      the new ones sit one row gap above the list's highest platform, and
      all of them stay above the survivors and the platforms still to visit. */
  lemma RowJoined(kept: seq<Platforms.Platform>, pending: seq<Platforms.Platform>,
                  added: seq<Platforms.Platform>, a: seq<Platforms.Platform>)
    requires Healthy(kept) && Healthy(pending) && Healthy(added)
    requires Above(added, kept) && Above(added, pending)
    requires 0 < |kept + pending + added| < |a|
    requires FreshFrom(a, |kept + pending + added|, MinY(kept + pending + added) - RowGap)
    ensures var current := kept + pending + added;
            var b := added + a[|current|..];
            && |b| > |added| && b[..|added|] == added
            && FreshFrom(b, |added|, MinY(current) - RowGap)
            && Healthy(b) && Above(b, kept) && Above(b, pending)
  {
    var current := kept + pending + added;
    FreshRowHealthy(a, |current|, MinY(current) - RowGap);
    RowAppended(added, a, |current|, MinY(current) - RowGap);
    NewRowAbove(kept, pending, added, a);
    ConcatHealthy(added, a[|current|..]);
  }

  /** Every platform of `a` lies strictly above (at a smaller y than)
      every platform of `b`. */
  predicate Above(a: seq<Platforms.Platform>, b: seq<Platforms.Platform>) {
    forall j, k :: 0 <= j < |a| && 0 <= k < |b| ==> a[j].y < b[k].y
  }

  /** Being above a list is being above its head and above its tail. */
  lemma AboveSplit(a: seq<Platforms.Platform>, b: seq<Platforms.Platform>)
    requires |b| > 0 && Above(a, b)
    ensures Above(a, [b[0]]) && Above(a, b[1..])
  {
  }

  /** The platform the sweep visits next, once updated, and those after it
      stay below whatever lies above the unvisited rest. */
  lemma AboveStep(added: seq<Platforms.Platform>, ps: seq<Platforms.Platform>, i: nat, now: real)
    requires i < |ps| && ps[i].fadeDuration != 0.0
    requires Above(added, ps[i..])
    ensures Above(added, [Platforms.Update(ps[i], now)]) && Above(added, ps[i + 1..])
  {
  }

  /** Being above two lists is being above their concatenation. */
  lemma AboveJoin(a: seq<Platforms.Platform>, b: seq<Platforms.Platform>, c: seq<Platforms.Platform>)
    requires Above(a, b) && Above(a, c)
    ensures Above(a, b + c)
  {
  }

  /** The row `add_platform` appends lies above everything already in
      the list it was given, so above the survivors and the platforms not
      yet visited. */
  lemma NewRowAbove(kept: seq<Platforms.Platform>, pending: seq<Platforms.Platform>,
                    added: seq<Platforms.Platform>, a: seq<Platforms.Platform>)
    requires 0 < |kept + pending + added| <= |a|
    requires FreshFrom(a, |kept + pending + added|, MinY(kept + pending + added) - RowGap)
    requires Above(added, kept) && Above(added, pending)
    ensures Above(added + a[|kept + pending + added|..], kept)
    ensures Above(added + a[|kept + pending + added|..], pending)
  {
    var current := kept + pending + added;
    var n := |current|;
    var m := MinY(current);
    forall k | 0 <= k < |kept|
      ensures m <= kept[k].y
    {
      assert current[k] == kept[k];
    }
    forall k | 0 <= k < |pending|
      ensures m <= pending[k].y
    {
      assert current[|kept| + k] == pending[k];
    }
    var b := added + a[n..];
    forall j | |added| <= j < |b|
      ensures b[j].y == m - RowGap
    {
      assert b[j] == a[n + j - |added|];
    }
  }

  /** Appending the fresh tail of `a` from `n` on to `b` leaves that tail
      fresh in the result, from `|b|` on. */
  lemma RowAppended(b: seq<Platforms.Platform>, a: seq<Platforms.Platform>, n: nat, y: real)
    requires n <= |a|
    requires FreshFrom(a, n, y)
    ensures FreshFrom(b + a[n..], |b|, y)
    ensures (b + a[n..])[..|b|] == b
  {
  }

  /** The first steps of `update`: the player moves, the camera follows,
      and a new best height raises the score to that height. */
  function Climb(g: Game): (r: Game)
    ensures r.player == Players.Update(g.player)
    ensures r.camera == Cameras.Update(g.camera, r.player.y, WindowHeight as real)
    ensures r.maxHeight >= g.maxHeight
    ensures -r.player.y > g.maxHeight ==> r.maxHeight == -r.player.y && r.score == Trunc(-r.player.y)
    ensures -r.player.y <= g.maxHeight ==> r.maxHeight == g.maxHeight && r.score == g.score
    ensures r.running == g.running && r.pathManager == g.pathManager && r.platforms == g.platforms
  {
    var player1 := Players.Update(g.player);
    var camera1 := Cameras.Update(g.camera, player1.y, WindowHeight as real);
    var climbed := -player1.y > g.maxHeight;
    var maxHeight := if climbed then -player1.y else g.maxHeight;
    var score := if climbed then Trunc(maxHeight) else g.score;
    g.(player := player1, camera := camera1, maxHeight := maxHeight, score := score)
  }

  /** A bounce starts a fade but does not deactivate a platform or change
      how long its fade takes. */
  lemma CollisionKeepsHealth(p: Players.Player, ps: seq<Platforms.Platform>, now: real)
    requires Healthy(ps)
    ensures Healthy(Players.CheckPlatformCollision(p, ps, now).platforms)
  {
  }

  /** The game-over test of `update`: the player has dropped more than
      100 pixels below the window's bottom edge. */
  predicate Fallen(g: Game) {
    Cameras.ApplyOffset(g.camera, g.player.y) > WindowHeight as real + GameOverMargin
  }

  /** One tick of `Game.update`. `landed` is the state `manage_platforms`
      is handed: the moved player after its bounce, the camera that
      followed it, and the survivors of the platform loop followed by the
      rows that loop added (see `Landed`). The result is None exactly where
      the source raises on that state (see `ManageDefined`): pruning keeps
      none of its platforms and the screen top (camera offset minus 100)
      is negative. Otherwise the
      best height never drops, the score follows it, no faded platform
      survives the tick, and the game stops exactly when the player has
      fallen out of view. */
  method Update(g: Game, now: real, rng: Rng) returns (r: Option<Tick>, landed: Game)
    requires Valid(g)
    ensures Landed(g, now, rng, landed)
    ensures r.Some? <==> ManageDefined(landed)
    ensures r.None? ==> ScreenTop(Climb(g).camera) < 0.0
    ensures var bounce := Players.CheckPlatformCollision(Climb(g).player, g.platforms, now);
            Healthy(bounce.platforms) && Prune(Survivors(bounce.platforms, now), PruneLine(Climb(g).camera)) != [] ==> r.Some?
    ensures r.Some? ==> Valid(r.value.game)
    ensures r.Some? ==>
              var moved := Players.Update(g.player).y;
              && (-moved > g.maxHeight ==> r.value.game.maxHeight == -moved && r.value.game.score == Trunc(-moved))
              && (-moved <= g.maxHeight ==> r.value.game.maxHeight == g.maxHeight && r.value.game.score == g.score)
    ensures r.Some? ==> r.value.game.maxHeight >= g.maxHeight
    ensures r.Some? ==> (r.value.game.running <==> g.running && !Fallen(r.value.game))
    ensures r.Some? ==> r.value.game.player.y == Players.Update(g.player).y
    ensures r.Some? ==> r.value.game.camera == Climb(g).camera
    ensures r.Some? ==>
              r.value.game == landed.(pathManager := r.value.game.pathManager, platforms := r.value.game.platforms,
                                      running := r.value.game.running)
    ensures r.Some? ==>
              var kept := Prune(landed.platforms, PruneLine(landed.camera));
              |r.value.game.platforms| >= |kept| && r.value.game.platforms[..|kept|] == kept
  {
    var rest;
    landed, rest := Land(g, now, rng);
    var bounce := Players.CheckPlatformCollision(Climb(g).player, g.platforms, now);
    var kept := Survivors(bounce.platforms, now);
    assert landed.platforms == kept + landed.platforms[|kept|..];
    PruneConcat(kept, landed.platforms[|kept|..], PruneLine(landed.camera));
    if !ManageDefined(landed) {
      return None, landed;
    }
    var t := Finish(landed, rest);
    return Some(t), landed;
  }

  /** The second half of `update`, on a state `manage_platforms` accepts:
      manage the platforms, then stop the game if the player has fallen
      out of view. Only the platforms, the path manager and the running
      flag change; every platform above the pruning line stays, in order. */
  method Finish(landed: Game, rest: Rng) returns (t: Tick)
    requires Valid(landed) && ManageDefined(landed)
    ensures Valid(t.game)
    ensures t.game == landed.(pathManager := t.game.pathManager, platforms := t.game.platforms, running := t.game.running)
    ensures t.game.running <==> landed.running && !Fallen(t.game)
    ensures var kept := Prune(landed.platforms, PruneLine(landed.camera));
            |t.game.platforms| >= |kept| && t.game.platforms[..|kept|] == kept
  {
    var managed := ManagePlatforms(landed, rest);
    t := Tick(managed.game.(running := landed.running && !Fallen(managed.game)), managed.rest);
  }

  /** `landed` is a state the first half of `update` can hand to
      `manage_platforms` from `g`: the player has moved and bounced, the
      camera followed it, and the platforms are the survivors of the
      platform loop, in order, followed by the rows its `add_platform`
      calls grew, at least one platform per expired platform (none when a
      lone platform expires) and all above every survivor. The platforms
      and the path manager are exactly what the loop (`PlatformLoop`)
      leaves, the path manager still has live lanes, and nothing else in
      the state changes. */
  predicate Landed(g: Game, now: real, rng: Rng, landed: Game)
    requires Valid(g)
  {
    var bounce := Players.CheckPlatformCollision(Climb(g).player, g.platforms, now);
    var swept := PlatformLoop(g, now, rng);
    && landed == Climb(g).(player := bounce.player, pathManager := swept.pathManager, platforms := swept.kept + swept.added)
    && Valid(landed)
    && Healthy(bounce.platforms)
    && var kept := Survivors(bounce.platforms, now);
       && |kept| <= |landed.platforms| && landed.platforms[..|kept|] == kept
       && var added := landed.platforms[|kept|..];
          && (|added| >= Expired(bounce.platforms, now)
              || (|bounce.platforms| == 1 && Expired(bounce.platforms, now) == 1 && added == []))
          && Above(added, kept)
  }

  /** The platform loop of `update` on the platforms after the bounce,
      starting with the game's path manager and the stream `rng`. */
  function PlatformLoop(g: Game, now: real, rng: Rng): Swept
    requires Valid(g)
  {
    var bounce := Players.CheckPlatformCollision(Climb(g).player, g.platforms, now);
    CollisionKeepsHealth(Climb(g).player, g.platforms, now);
    SweepFrom(bounce.platforms, 0, now, Swept([], [], g.pathManager, rng, 0))
  }

  /** The first half of `update`, up to the call of `manage_platforms`. */
  method Land(g: Game, now: real, rng: Rng) returns (landed: Game, rest: Rng)
    requires Valid(g)
    ensures Landed(g, now, rng, landed)
    ensures rest == PlatformLoop(g, now, rng).rest
  {
    var climbed := Climb(g);
    var bounce := Players.CheckPlatformCollision(climbed.player, climbed.platforms, now);
    CollisionKeepsHealth(climbed.player, climbed.platforms, now);
    var swept := Sweep(bounce.platforms, climbed.pathManager, now, rng);
    landed := climbed.(player := bounce.player, pathManager := swept.pathManager, platforms := swept.kept + swept.added);
    rest := swept.rest;
    assert landed.platforms[..|swept.kept|] == swept.kept;
    assert landed.platforms[|swept.kept|..] == swept.added;
    ConcatHealthy(swept.kept, swept.added);
  }

  /** Pruning distributes over concatenation. */
  lemma {:induction false} PruneConcat(a: seq<Platforms.Platform>, b: seq<Platforms.Platform>, limit: real)
    ensures Prune(a + b, limit) == Prune(a, limit) + Prune(b, limit)
  {
    if |a| > 0 {
      PruneConcat(a[1..], b, limit);
      assert (a + b)[0] == a[0] && (a + b)[1..] == a[1..] + b;
    } else {
      assert a + b == b;
    }
  }

  /** The input of one frame, as `handle_events` reads it. */
  datatype Event = Quit | KeyDown(escape: bool) | OtherEvent

  /** `handle_events`: a quit event or Escape stops the game; the arrow
      keys held set the direction, right winning over left. */
  function HandleEvents(g: Game, events: seq<Event>, left: bool, right: bool): (r: Game)
    ensures r.running <==> g.running && forall i :: 0 <= i < |events| ==> events[i] != Quit && events[i] != KeyDown(true)
    ensures r.player.velocityX == Players.Speed * (if right then 1.0 else if left then -1.0 else 0.0)
    ensures r == g.(running := r.running, player := r.player)
    ensures r.player == g.player.(velocityX := r.player.velocityX)
  {
    var stop := exists i :: 0 <= i < |events| && (events[i] == Quit || events[i] == KeyDown(true));
    var direction := if right then 1 else if left then -1 else 0;
    g.(running := g.running && !stop, player := Players.Move(g.player, direction))
  }

  /** The starting platform under the player: full width, centred, 50 above the bottom. */
  function StartingPlatform(): (p: Platforms.Platform)
    ensures p.x == 350.0 && p.y == 550.0 && p.width == 100.0 && Platforms.Fresh(p) && p.fadeDuration > 0.0
  {
    Platforms.NewPlatform((WindowWidth / 2 - Platforms.MaxWidth / 2) as real, (WindowHeight - 50) as real,
                          1.0, Some(Platforms.MaxWidth as real), NormalType, Rng([])).value
  }

  /** `generate_initial_platforms`: the starting platform, then one row
      every 144 units from 450 up while the height stays positive: rows at
      450, 306, 162 and 18, one platform each in the single centred lane,
      so five platforms in all. */
  method GenerateInitialPlatforms(pm: PathManagement.PathManager, g: Rng) returns (r: Grown)
    requires pm.windowWidth == WindowWidth
    ensures PathManagement.Live(r.pathManager)
    ensures r.pathManager.paths == PathManagement.InitializePath(pm).paths
    ensures Healthy(r.platforms)
    ensures |r.platforms| == 5 && r.platforms[0] == StartingPlatform()
    ensures forall j :: 1 <= j < 5 ==>
              && r.platforms[j].y == 450.0 - 144.0 * (j - 1) as real
              && 300.0 <= r.platforms[j].x <= 500.0
  {
    var start := StartingPlatform();
    var manager := PathManagement.InitializePath(pm);
    var lane := manager.paths[0];
    var platforms := [start];
    var height := (WindowHeight - 150) as real;
    var rng := g;
    while height > 0.0
      invariant 1 <= |platforms| <= 5
      invariant height == 450.0 - 144.0 * (|platforms| - 1) as real
      invariant height > -RowGap
      invariant manager.paths == [lane] && PathManagement.Live(manager) && manager.windowWidth == WindowWidth
      invariant platforms[0] == start
      invariant Healthy(platforms)
      invariant forall j :: 1 <= j < |platforms| ==>
                  platforms[j].y == 450.0 - 144.0 * (j - 1) as real && 300.0 <= platforms[j].x <= 500.0
      decreases if height > 0.0 then height.Floor + 1 else 0
    {
      var grown := AddRowAt(manager, platforms, height, rng);
      assert PathManagement.Viable(grown.pathManager.paths) == [lane];
      assert |grown.platforms| == |platforms| + 1;
      var p := grown.platforms[|platforms|];
      assert Placed(p, lane, WindowWidth, height);
      assert forall j :: 0 <= j < |platforms| ==> grown.platforms[j] == grown.platforms[..|platforms|][j];
      FloorShift(height);
      platforms, manager, rng := grown.platforms, grown.pathManager, grown.rest;
      height := height - RowGap;
    }
    r := Grown(manager, platforms, rng);
  }

  /** `Game()`: a fresh camera, an empty path manager, the player at the
      bottom centre standing on the starting platform, and the initial
      platforms. */
  method NewGame(g: Rng) returns (r: Tick)
    ensures Valid(r.game)
    ensures r.game.running && r.game.score == 0 && r.game.maxHeight == 0.0
    ensures r.game.camera == Cameras.NewCamera()
    ensures r.game.player == Players.NewPlayer(WindowWidth / 2, WindowHeight - 100)
    ensures |r.game.platforms| == 5 && r.game.platforms[0] == StartingPlatform()
  {
    var pm := PathManagement.NewPathManager(WindowWidth, PlatformSpacing);
    var built := GenerateInitialPlatforms(pm, g);
    r := Tick(Game(true, 0, 0.0, Cameras.NewCamera(), built.pathManager,
                   Players.NewPlayer(WindowWidth / 2, WindowHeight - 100), built.platforms),
              built.rest);
  }
}

=== FILE: game_over_modal.dfy ===
/** The game-over dialog: two buttons, the name-entry state machine, and
    saving the score under the entered name.

    Drawing, fonts and colours are outside the model; the high-score
    table the dialog's own manager holds is a field of the state. */
module GameOver {
  import opened Common
  import HighScores

  const ModalWidth: int := 600
  const ModalHeight: int := 500
  const ButtonWidth: int := 120
  const ButtonHeight: int := 40
  const ButtonSpacing: int := 40
  const BottomMargin: int := 30
  const DefaultName: string := "Unknown"

  /** The keys the dialog tells apart. */
  datatype Key = Return | Backspace | OtherKey

  /** The pygame events the dialog reacts to; every other kind is `OtherEvent`. */
  datatype Event =
    | MouseMotion(x: int, y: int)
    | MouseButtonDown(x: int, y: int)
    | KeyDown(key: Key, unicode: string)
    | OtherEvent

  // ---------------------------------------------------------------- buttons

  datatype Button = Button(rect: Rect, isHovered: bool)

  /** What `Button.handle_event` leaves behind and whether it reported a click. */
  datatype Pressed = Pressed(button: Button, clicked: bool)

  /** `Button.handle_event`: a motion event moves the hover state to
      whether the pointer is on the button and never clicks; a button
      press clicks exactly when the button is hovered, wherever the press
      itself lands; nothing else does anything. */
  function Press(b: Button, e: Event): (r: Pressed)
    ensures r.button.rect == b.rect
    ensures e.MouseMotion? ==> r.button.isHovered == b.rect.CollidePoint(e.x, e.y) && !r.clicked
    ensures !e.MouseMotion? ==> r.button == b
    ensures r.clicked <==> e.MouseButtonDown? && b.isHovered
  {
    match e
    case MouseMotion(x, y) => Pressed(b.(isHovered := b.rect.CollidePoint(x, y)), false)
    case MouseButtonDown(_, _) => Pressed(b, b.isHovered)
    case _ => Pressed(b, false)
  }

  /** A press right after the pointer moved to (x, y) clicks the button
      exactly when (x, y) is on it. */
  lemma ClickFollowsPointer(b: Button, x: int, y: int, px: int, py: int)
    ensures Press(Press(b, MouseMotion(x, y)).button, MouseButtonDown(px, py)).clicked
            <==> b.rect.CollidePoint(x, y)
  {
  }

  // ------------------------------------------------------------- whitespace

  /** Python's `str.isspace` on one character: the ASCII separators and
      controls \t \n \v \f \r, \x1c-\x1f and space, and the Unicode spaces
      and line separators. */
  predicate IsSpace(c: char) {
    || c == ' ' || ('\t' <= c <= '\r') || ('\U{1C}' <= c <= '\U{1F}')
    || c == '\U{85}' || c == '\U{A0}' || c == '\U{1680}'
    || ('\U{2000}' <= c <= '\U{200A}') || c == '\U{2028}' || c == '\U{2029}'
    || c == '\U{202F}' || c == '\U{205F}' || c == '\U{3000}'
  }

  /** Python's `str.isprintable` on one character: everything but the
      controls, the format characters listed here and the separators
      other than the ASCII space. */
  predicate IsPrintableChar(c: char) {
    && !(c < ' ') && !('\U{7F}' <= c <= '\U{A0}')
    && c != '\U{AD}'
    && (c == ' ' || !IsSpace(c))
    && !('\U{200B}' <= c <= '\U{200F}') && !('\U{202A}' <= c <= '\U{202E}')
    && !('\U{2060}' <= c <= '\U{2064}') && c != '\U{FEFF}'
  }

  /** `str.isprintable`: every character printable; true of "". */
  predicate IsPrintable(s: string) {
    forall i :: 0 <= i < |s| ==> IsPrintableChar(s[i])
  }

  /** `lstrip()`: drop leading whitespace. */
  function TrimStart(s: string): (r: string)
    ensures |r| <= |s| && r == s[|s| - |r|..]
    ensures forall k :: 0 <= k < |s| - |r| ==> IsSpace(s[k])
    ensures |r| > 0 ==> !IsSpace(r[0])
  {
    if |s| > 0 && IsSpace(s[0]) then
      var t := TrimStart(s[1..]);
      assert forall k :: 1 <= k < |s| ==> s[1..][k - 1] == s[k];
      t
    else s
  }

  /** `rstrip()`: drop trailing whitespace. */
  function TrimEnd(s: string): (r: string)
    ensures |r| <= |s| && r == s[..|r|]
    ensures forall k :: |r| <= k < |s| ==> IsSpace(s[k])
    ensures |r| > 0 ==> !IsSpace(r[|r| - 1])
  {
    if |s| > 0 && IsSpace(s[|s| - 1]) then
      var t := TrimEnd(s[..|s| - 1]);
      assert forall k :: 0 <= k < |s| - 1 ==> s[..|s| - 1][k] == s[k];
      t
    else s
  }

  /** `strip()`: whitespace cut from both ends. */
  function Strip(s: string): string {
    TrimEnd(TrimStart(s))
  }

  /** No whitespace is left at either end of a stripped string. */
  lemma StripEnds(s: string)
    ensures var r := Strip(s);
            |r| > 0 ==> !IsSpace(r[0]) && !IsSpace(r[|r| - 1])
  {
  }

  /** What `strip()` cuts is whitespace, from either end only: the result
      is a slice of the input with nothing but whitespace around it. */
  lemma StripIsSlice(s: string)
    ensures exists i, j :: 0 <= i <= j <= |s| && Strip(s) == s[i..j]
              && (forall k :: 0 <= k < i ==> IsSpace(s[k]))
              && (forall k :: j <= k < |s| ==> IsSpace(s[k]))
  {
    var a := TrimStart(s);
    var r := TrimEnd(a);
    var i := |s| - |a|;
    var j := i + |r|;
    assert r == s[i..j] by {
      assert a == s[i..] && r == a[..|r|];
    }
    forall k | j <= k < |s|
      ensures IsSpace(s[k])
    {
      assert s[k] == a[k - i];
    }
  }

  /** A string strips to nothing exactly when it is all whitespace. */
  lemma StripBlank(s: string)
    ensures Strip(s) == [] <==> forall k :: 0 <= k < |s| ==> IsSpace(s[k])
  {
  }

  /** Stripping twice strips nothing more. */
  lemma StripIdempotent(s: string)
    ensures Strip(Strip(s)) == Strip(s)
  {
  }

  // ------------------------------------------------------------------ modal

  /** The dialog state. `highScores` is the table read when the dialog was
      shown, for display; `table` is the table its manager holds. */
  datatype Modal = Modal(
    screenWidth: int,
    screenHeight: int,
    visible: bool,
    score: int,
    highScores: seq<HighScores.HighScore>,
    inputActive: bool,
    playerName: string,
    needsNameInput: bool,
    table: seq<HighScores.HighScore>,
    retry: Button,
    quit: Button)

  /** The dialog's left edge: `(screen_width - width) // 2`; Python's
      floor division agrees with Dafny's `/` for a positive divisor. */
  function Left(screenWidth: int): int { (screenWidth - ModalWidth) / 2 }

  function Top(screenHeight: int): int { (screenHeight - ModalHeight) / 2 }

  /** `GameOverModal(screen_width, screen_height)`, with `table` the
      manager's table as loaded: hidden, nothing typed, and two unhovered
      120x40 buttons 30 above the dialog's bottom edge, Retry 40 left of
      the centre line and Quit 40 right of it. */
  function NewModal(screenWidth: int, screenHeight: int, table: seq<HighScores.HighScore>): (m: Modal)
    ensures !m.visible && !m.inputActive && !m.needsNameInput && m.playerName == "" && m.score == 0
    ensures m.table == table && m.highScores == []
    ensures var x, y := Left(screenWidth), Top(screenHeight);
            && m.retry == Button(Rect(x + 140, y + 430, 120, 40), false)
            && m.quit == Button(Rect(x + 340, y + 430, 120, 40), false)
            && m.retry.rect.Bottom() == y + ModalHeight - BottomMargin
            && m.retry.rect.Right() + 2 * ButtonSpacing == x + ModalWidth / 2 + ButtonSpacing == m.quit.rect.left
  {
    var x := Left(screenWidth);
    var y := Top(screenHeight);
    var buttonY := y + ModalHeight - ButtonHeight - BottomMargin;
    Modal(screenWidth, screenHeight, false, 0, [], false, "", false, table,
          Button(Rect(x + ModalWidth / 2 - ButtonWidth - ButtonSpacing, buttonY, ButtonWidth, ButtonHeight), false),
          Button(Rect(x + ModalWidth / 2 + ButtonSpacing, buttonY, ButtonWidth, ButtonHeight), false))
  }

  /** The two buttons of a new dialog never overlap: no point is on both,
      so the order in which they are asked cannot matter for the pointer. */
  lemma ButtonsDisjoint(screenWidth: int, screenHeight: int, table: seq<HighScores.HighScore>, px: int, py: int)
    ensures var m := NewModal(screenWidth, screenHeight, table);
            !(m.retry.rect.CollidePoint(px, py) && m.quit.rect.CollidePoint(px, py))
  {
  }

  /** `show(score)`: visible, nothing typed, and a name is asked for
      exactly when the score would make the table. */
  function Show(m: Modal, score: int): (r: Modal)
    ensures r.visible && r.score == score && r.playerName == ""
    ensures r.needsNameInput == HighScores.IsHighScore(m.table, score)
    ensures r.inputActive == r.needsNameInput
    ensures r.highScores == m.table
    ensures r.table == m.table && r.retry == m.retry && r.quit == m.quit
  {
    var needs := HighScores.IsHighScore(m.table, score);
    m.(visible := true, score := score, highScores := m.table, needsNameInput := needs,
       inputActive := needs, playerName := "")
  }

  /** `hide()`: hidden, input off, name cleared; nothing else changes. */
  function Hide(m: Modal): (r: Modal)
    ensures !r.visible && !r.inputActive && r.playerName == ""
    ensures r == m.(visible := false, inputActive := false, playerName := "")
  {
    m.(visible := false, inputActive := false, playerName := "")
  }

  /** The name `_save_score` records: the stripped name, or "Unknown" when
      nothing but whitespace was typed. Never empty, never padded. */
  function SavedName(playerName: string): (r: string)
    ensures |r| > 0 && !IsSpace(r[0]) && !IsSpace(r[|r| - 1])
    ensures (forall k :: 0 <= k < |playerName| ==> IsSpace(playerName[k])) ==> r == DefaultName
    ensures (exists k :: 0 <= k < |playerName| && !IsSpace(playerName[k])) ==> r == Strip(playerName)
  {
    StripBlank(playerName);
    StripEnds(playerName);
    if Strip(playerName) != "" then Strip(playerName) else DefaultName
  }

  /** `_save_score`: the score goes to the manager's table under the saved name. */
  function SaveScore(m: Modal): (r: Modal)
    ensures r.table == HighScores.AddScore(m.table, SavedName(m.playerName), m.score).scores
    ensures r == m.(table := r.table)
  {
    m.(table := HighScores.AddScore(m.table, SavedName(m.playerName), m.score).scores)
  }

  /** The two actions `handle_event` can report. */
  datatype Action = Retry | Quit

  datatype Outcome = Outcome(modal: Modal, action: Option<Action>)

  /** The name-input branch of `handle_event`, on an event neither button
      took: only key presses while a name is wanted and input is on do
      anything. Enter ends the input, turning a blank name into "Unknown";
      Backspace drops the last character; any other key appends its text
      when that text is printable and the name is under 20 characters. */
  function EditName(m: Modal, e: Event): (r: Modal)
    ensures !(m.needsNameInput && m.inputActive && e.KeyDown?) ==> r == m
    ensures r == m.(playerName := r.playerName, inputActive := r.inputActive)
    ensures m.needsNameInput && m.inputActive && e.KeyDown? ==>
              match e.key
              case Return =>
                && !r.inputActive
                && (r.playerName == DefaultName <==> Strip(m.playerName) == "" || m.playerName == DefaultName)
                && (Strip(m.playerName) != "" ==> r.playerName == m.playerName)
              case Backspace =>
                && r.inputActive
                && (|m.playerName| > 0 ==> r.playerName + [m.playerName[|m.playerName| - 1]] == m.playerName)
                && (|m.playerName| == 0 ==> r.playerName == "")
              case OtherKey =>
                && r.inputActive
                && (IsPrintable(e.unicode) && |m.playerName| < HighScores.MaxNameLength ==>
                      r.playerName == m.playerName + e.unicode)
                && (!IsPrintable(e.unicode) || |m.playerName| >= HighScores.MaxNameLength ==>
                      r.playerName == m.playerName)
  {
    if m.needsNameInput && m.inputActive && e.KeyDown? then
      match e.key
      case Return =>
        m.(playerName := if Strip(m.playerName) == "" then DefaultName else m.playerName, inputActive := false)
      case Backspace =>
        m.(playerName := if |m.playerName| > 0 then m.playerName[..|m.playerName| - 1] else "")
      case OtherKey =>
        if IsPrintable(e.unicode) && |m.playerName| < HighScores.MaxNameLength then
          m.(playerName := m.playerName + e.unicode)
        else m
    else m
  }

  /** `handle_event`. A hidden dialog ignores everything. Otherwise the
      Retry button sees the event first and the Quit button only when
      Retry did not click; a click reports its action and saves the score
      exactly when a name was asked for; an event no button took goes to
      the name input. The dialog never hides itself, and the score, the
      displayed table, whether a name is wanted and the screen size are
      left as they were. */
  function HandleEvent(m: Modal, e: Event): (r: Outcome)
    ensures !m.visible ==> r == Outcome(m, None)
    ensures r.modal.visible == m.visible
    ensures r.modal == m.(retry := r.modal.retry, quit := r.modal.quit, playerName := r.modal.playerName,
                          inputActive := r.modal.inputActive, table := r.modal.table)
    ensures r.action == Some(Retry) <==> m.visible && e.MouseButtonDown? && m.retry.isHovered
    ensures r.action == Some(Quit) <==> m.visible && e.MouseButtonDown? && !m.retry.isHovered && m.quit.isHovered
    ensures r.action.Some? && m.needsNameInput ==>
              r.modal.table == HighScores.AddScore(m.table, SavedName(m.playerName), m.score).scores
    ensures r.action.Some? && !m.needsNameInput ==> r.modal.table == m.table
    ensures r.action.None? ==> r.modal.table == m.table
    ensures r.action.Some? ==> r.modal.playerName == m.playerName && r.modal.inputActive == m.inputActive
    ensures m.visible && e.MouseMotion? ==>
              && r.modal.retry.isHovered == m.retry.rect.CollidePoint(e.x, e.y)
              && r.modal.quit.isHovered == m.quit.rect.CollidePoint(e.x, e.y)
    ensures !e.MouseMotion? ==> r.modal.retry == m.retry && r.modal.quit == m.quit
    ensures r.action.None? && m.visible ==>
              r.modal.playerName == EditName(m, e).playerName && r.modal.inputActive == EditName(m, e).inputActive
  {
    if !m.visible then Outcome(m, None)
    else
      var retry := Press(m.retry, e);
      var m1 := m.(retry := retry.button);
      if retry.clicked then
        Outcome(if m.needsNameInput then SaveScore(m1) else m1, Some(Retry))
      else
        var quit := Press(m.quit, e);
        var m2 := m1.(quit := quit.button);
        if quit.clicked then
          Outcome(if m.needsNameInput then SaveScore(m2) else m2, Some(Quit))
        else
          Outcome(EditName(m2, e), None)
  }

  /** The name never grows past 20 characters: starting from a name that
      fits, every event that carries at most one character of text leaves
      a name that fits. */
  lemma NameStaysShort(m: Modal, e: Event)
    requires |m.playerName| <= HighScores.MaxNameLength
    requires e.KeyDown? ==> |e.unicode| <= 1
    ensures |HandleEvent(m, e).modal.playerName| <= HighScores.MaxNameLength
  {
  }

  /** A name is asked for exactly when saving would make the table: right
      after `show`, a click on either button that saves the score is
      reported as a high score by `add_score`, whatever name was typed. */
  lemma SaveAfterShowAdds(m: Modal, score: int, name: string)
    ensures var shown := Show(m, score);
            shown.needsNameInput <==> HighScores.AddScore(shown.table, name, score).added
  {
  }

  /** Pressing Enter on a blank name stores "Unknown" and ends the
      input; a click after that saves the score under "Unknown". */
  lemma BlankNameSavedAsUnknown(m: Modal)
    requires m.visible && m.needsNameInput && m.inputActive
    requires forall k :: 0 <= k < |m.playerName| ==> IsSpace(m.playerName[k])
    ensures var entered := HandleEvent(m, KeyDown(Return, "")).modal;
            && entered.playerName == DefaultName && !entered.inputActive
            && SavedName(entered.playerName) == DefaultName
  {
    StripBlank(m.playerName);
    var e := KeyDown(Return, "");
    var r := HandleEvent(m, e);
    assert r.action.None?;
    var n := EditName(m, e);
    assert n.playerName == DefaultName && !n.inputActive;
    StripUnpadded(DefaultName);
  }

  /** A string with no whitespace at either end strips to itself. */
  lemma StripUnpadded(s: string)
    requires |s| > 0 && !IsSpace(s[0]) && !IsSpace(s[|s| - 1])
    ensures Strip(s) == s
  {
  }
}

=== FILE: high_scores.dfy ===
/** The ranked high-score table: at most ten entries, best first.

    The store is the in-memory list of `HighScoreManager`; loading and
    saving the JSON file are outside the model, and so is the timestamp. */
module HighScores {

  const MaxScores: nat := 10
  const MaxNameLength: nat := 20

  datatype HighScore = HighScore(playerName: string, score: int)

  /** `HighScore(name, score)`: the stored name keeps at most the first
      twenty characters of the one given. */
  function NewHighScore(playerName: string, score: int): (h: HighScore)
    ensures |h.playerName| <= MaxNameLength
    ensures h.playerName <= playerName
    ensures |playerName| <= MaxNameLength ==> h.playerName == playerName
    ensures |playerName| > MaxNameLength ==> |h.playerName| == MaxNameLength
    ensures h.score == score
  {
    HighScore(if |playerName| <= MaxNameLength then playerName else playerName[..MaxNameLength], score)
  }

  /** Best first: scores never increase along the table. */
  predicate Sorted(s: seq<HighScore>) {
    forall i, j :: 0 <= i < j < |s| ==> s[i].score >= s[j].score
  }

  /** Where `e` lands when inserted: after the leading run of entries
      that score at least as much as it does. */
  function InsertPos(s: seq<HighScore>, e: HighScore): (k: nat)
    ensures k <= |s|
    ensures forall i :: 0 <= i < k ==> s[i].score >= e.score
    ensures k < |s| ==> s[k].score < e.score
  {
    if |s| == 0 then 0
    else if s[0].score >= e.score then 1 + InsertPos(s[1..], e)
    else 0
  }

  /** One step of a stable descending insertion sort: `e` goes after
      every leading entry that scores at least as much. */
  function Insert(s: seq<HighScore>, e: HighScore): seq<HighScore>
  {
    if |s| == 0 then [e]
    else if s[0].score >= e.score then [s[0]] + Insert(s[1..], e)
    else [e] + s
  }

  /** Insertion splits the table at `InsertPos` and changes nothing else. */
  lemma {:induction false} InsertSplits(s: seq<HighScore>, e: HighScore)
    ensures Insert(s, e) == s[..InsertPos(s, e)] + [e] + s[InsertPos(s, e)..]
  {
    if |s| > 0 && s[0].score >= e.score {
      InsertSplits(s[1..], e);
      var k := InsertPos(s[1..], e);
      assert s[1..][..k] == s[1..k + 1];
      assert s[1..][k..] == s[k + 1..];
      assert [s[0]] + s[1..k + 1] == s[..k + 1];
    }
  }

  /** Insertion adds exactly `e` to the table: one more entry, and the
      same entries besides. */
  lemma InsertCount(s: seq<HighScore>, e: HighScore)
    ensures |Insert(s, e)| == |s| + 1
    ensures multiset(Insert(s, e)) == multiset(s) + multiset{e}
  {
    InsertSplits(s, e);
    SplitMultiset(s, InsertPos(s, e), e);
  }

  /** Putting `e` in at any position adds exactly `e`. */
  lemma SplitMultiset<T>(s: seq<T>, k: nat, e: T)
    requires k <= |s|
    ensures multiset(s[..k] + [e] + s[k..]) == multiset(s) + multiset{e}
  {
    assert s == s[..k] + s[k..];
  }

  /** Insertion keeps a best-first table best-first. */
  lemma InsertSorted(s: seq<HighScore>, e: HighScore)
    requires Sorted(s)
    ensures Sorted(Insert(s, e))
  {
    InsertSplits(s, e);
    var k := InsertPos(s, e);
    var r := Insert(s, e);
    assert |r| == |s| + 1;
    forall m | 0 <= m < |r|
      ensures r[m] == if m < k then s[m] else if m == k then e else s[m - 1]
    {
    }
    forall i, j | 0 <= i < j < |r|
      ensures r[i].score >= r[j].score
    {
      if i == k {
        assert s[k].score < e.score && s[k].score >= s[j - 1].score;
      } else if j == k {
        assert s[i].score >= e.score;
      }
    }
  }

  /** `_sort_scores`: Python's stable `sort(key=score, reverse=True)`,
      written as insertion sort. */
  function SortDesc(s: seq<HighScore>): (r: seq<HighScore>)
    ensures Sorted(r)
    ensures multiset(r) == multiset(s)
    ensures |r| == |s|
    decreases |s|
  {
    if |s| == 0 then []
    else
      var prefix := s[..|s| - 1];
      var sortedPrefix := SortDesc(prefix);
      InsertSorted(sortedPrefix, s[|s| - 1]);
      InsertCount(sortedPrefix, s[|s| - 1]);
      assert s == prefix + [s[|s| - 1]];
      assert multiset(s) == multiset(prefix) + multiset{s[|s| - 1]};
      Insert(sortedPrefix, s[|s| - 1])
  }

  /** Appending an entry that scores no more than the whole table
      leaves it at the end. */
  lemma InsertAtEnd(s: seq<HighScore>, e: HighScore)
    requires forall i :: 0 <= i < |s| ==> s[i].score >= e.score
    ensures Insert(s, e) == s + [e]
  {
  }

  /** Sorting is stable: a table that is already best-first is left as it is. */
  lemma {:induction false} SortDescKeepsSorted(s: seq<HighScore>)
    requires Sorted(s)
    ensures SortDesc(s) == s
    decreases |s|
  {
    if |s| > 0 {
      var prefix := s[..|s| - 1];
      assert Sorted(prefix);
      SortDescKeepsSorted(prefix);
      InsertAtEnd(prefix, s[|s| - 1]);
      assert prefix + [s[|s| - 1]] == s;
    }
  }

  /** On a best-first table, appending and re-sorting is a single insertion. */
  lemma SortAfterAppend(s: seq<HighScore>, e: HighScore)
    requires Sorted(s)
    ensures SortDesc(s + [e]) == Insert(s, e)
  {
    assert (s + [e])[..|s + [e]| - 1] == s;
    SortDescKeepsSorted(s);
  }

  /** What `add_score` leaves behind and whether it reported a high score. */
  datatype AddOutcome = AddOutcome(scores: seq<HighScore>, added: bool)

  /** `self.scores[:MAX_SCORES]`: the best ten of a best-first table. */
  function KeepBest(s: seq<HighScore>): (kept: seq<HighScore>)
    ensures |kept| <= MaxScores
    ensures |s| <= MaxScores ==> kept == s
    ensures |s| > MaxScores ==> |kept| == MaxScores
    ensures kept <= s
    ensures multiset(kept) <= multiset(s)
    ensures Sorted(s) ==> Sorted(kept)
  {
    if |s| > MaxScores then
      assert s == s[..MaxScores] + s[MaxScores..];
      s[..MaxScores]
    else s
  }

  /** `HighScoreManager.add_score`: a table with room takes every score;
      a full one takes only a score above its last entry, re-sorts and
      keeps the first ten. Whatever it reports, the table stays best-first
      and never grows past ten. */
  function AddScore(scores: seq<HighScore>, playerName: string, score: int): (r: AddOutcome)
    ensures r.added <==> |scores| < MaxScores || score > scores[|scores| - 1].score
    ensures !r.added ==> r.scores == scores
    ensures |scores| < MaxScores ==> |r.scores| == |scores| + 1
    ensures |scores| <= MaxScores ==> |r.scores| <= MaxScores
    ensures r.added ==> Sorted(r.scores)
    ensures Sorted(scores) ==> Sorted(r.scores)
  {
    var e := NewHighScore(playerName, score);
    if |scores| < MaxScores then
      AddOutcome(SortDesc(scores + [e]), true)
    else if score > scores[|scores| - 1].score then
      AddOutcome(KeepBest(SortDesc(scores + [e])), true)
    else
      AddOutcome(scores, false)
  }

  /** What an accepted score leaves in the table: the new entry is always
      kept while there is room, and nothing but the old entries and the
      new one ever appears. */
  lemma AddScoreEntries(scores: seq<HighScore>, playerName: string, score: int)
    ensures var r := AddScore(scores, playerName, score);
            var e := NewHighScore(playerName, score);
            && (|scores| < MaxScores ==> e in r.scores)
            && (r.added ==> multiset(r.scores) <= multiset(scores) + multiset{e})
  {
    var e := NewHighScore(playerName, score);
    var s := SortDesc(scores + [e]);
    assert multiset(s) == multiset(scores) + multiset{e};
    if |scores| < MaxScores {
      assert e in multiset(s);
    }
  }

  /** On a full best-first table, an accepted score goes in at its rank
      and the old tenth entry falls off the end. */
  lemma FullTableDropsLast(scores: seq<HighScore>, playerName: string, score: int)
    requires |scores| == MaxScores && Sorted(scores)
    requires score > scores[MaxScores - 1].score
    ensures var e := NewHighScore(playerName, score);
            var k := InsertPos(scores, e);
            k < MaxScores && AddScore(scores, playerName, score).scores == scores[..k] + [e] + scores[k..MaxScores - 1]
  {
    var e := NewHighScore(playerName, score);
    var s := SortDesc(scores + [e]);
    assert AddScore(scores, playerName, score).scores == KeepBest(s);
    SortAfterAppend(scores, e);
    InsertSplits(scores, e);
    var k := InsertPos(scores, e);
    assert k < MaxScores;
    assert s == scores[..k] + [e] + scores[k..];
    assert KeepBest(s) == s[..MaxScores];
    DropLastOfSplit(scores, k, e);
  }

  /** Cutting the last entry of `s` with `e` put in before position `k`
      cuts the last entry of `s`. */
  lemma DropLastOfSplit<T>(s: seq<T>, k: nat, e: T)
    requires k < |s|
    ensures (s[..k] + [e] + s[k..])[..|s|] == s[..k] + [e] + s[k..|s| - 1]
  {
  }

  /** `is_high_score`: the answer `add_score` would give for this score,
      whatever the name. */
  function IsHighScore(scores: seq<HighScore>, score: int): (r: bool)
    ensures forall name :: r == AddScore(scores, name, score).added
  {
    if |scores| < MaxScores then true
    else if |scores| > 0 then score > scores[|scores| - 1].score
    else true
  }

  /** A table that holds more than ten entries (only a hand-edited save
      file can produce one) reports a score above its last entry as a high
      score, yet when that score ranks below tenth place the cut to ten
      throws the new entry away again. */
  lemma OverfullTableDropsNewEntry(t: seq<HighScore>, playerName: string, score: int)
    requires Sorted(t) && |t| > MaxScores
    requires score > t[|t| - 1].score
    requires t[MaxScores - 1].score >= score
    ensures AddScore(t, playerName, score).added
    ensures AddScore(t, playerName, score).scores == t[..MaxScores]
  {
    var e := NewHighScore(playerName, score);
    SortAfterAppend(t, e);
    InsertSplits(t, e);
    var k := InsertPos(t, e);
    assert k >= MaxScores;
    var s := SortDesc(t + [e]);
    assert AddScore(t, playerName, score).scores == KeepBest(s);
    assert KeepBest(s) == s[..MaxScores];
    PrefixOfSplit(t[..k], e, t[k..], MaxScores);
    assert t[..k][..MaxScores] == t[..MaxScores];
  }

  /** An instance: with twelve entries scoring 12 down to 1, a score of 2
      is accepted and then sorted into eleventh place, out of the table. */
  lemma OverfullTableCanDropNewEntry()
    ensures var t := seq(12, i => HighScore("p", 12 - i));
            var r := AddScore(t, "new", 2);
            r.added && HighScore("new", 2) !in r.scores
  {
    var t := seq(12, i => HighScore("p", 12 - i));
    OverfullTableDropsNewEntry(t, "new", 2);
    forall i | 0 <= i < MaxScores
      ensures t[..MaxScores][i] != HighScore("new", 2)
    {
      assert t[..MaxScores][i] == t[i];
    }
  }

  /** Keeping the first `n` entries of `a + [e] + b`, with `n` within `a`,
      keeps the first `n` of `a`. */
  lemma PrefixOfSplit<T>(a: seq<T>, e: T, b: seq<T>, n: nat)
    requires n <= |a|
    ensures (a + [e] + b)[..n] == a[..n]
  {
  }
}

=== FILE: path_manager.dfy ===
/** Lanes along which platforms are placed, and the manager that splits
    one lane into two and resets two lanes into one.

    Every draw the manager makes (the lane jitter, the split roll, the
    reset roll) comes from the generator passed in. */
module PathManagement {
  import opened Common
  import opened Random
  import Platforms

  const InitialVariation: int := 100
  const SplitVariation: int := 50
  const ResetVariation: int := 150
  const PathFadeTime: real := 2.0
  const SplitHeight: real := -500.0
  const MaxDifficulty: real := 2.0
  const DifficultyScale: real := 2000.0
  const SplitChance: real := 0.2
  const ResetChance: real := 0.1
  const MinPathDistance: int := 200

  /** A lane: its centre, its jitter, and the fade time it hands to its platforms. */
  datatype Path = Path(baseX: int, variation: int, isViable: bool, difficulty: real, fadeTime: real)

  /** `Path(base_x, variation, difficulty)`. */
  function NewPath(baseX: int, variation: int, difficulty: real): (p: Path)
    ensures p.isViable && p.fadeTime == PathFadeTime
    ensures p.baseX == baseX && p.variation == variation && p.difficulty == difficulty
  {
    Path(baseX, variation, true, difficulty, PathFadeTime)
  }

  /** The lane's range clamped to the screen: at least 0, and at most the
      screen width less the widest platform. */
  function XMin(p: Path): int { MaxInt(0, p.baseX - p.variation) }

  function XMax(p: Path, windowWidth: int): int {
    MinInt(windowWidth - Platforms.MaxWidth, p.baseX + p.variation)
  }

  /** Where `get_next_x` may put a platform of lane `p`: inside the
      clamped range, or at the screen centre when that range is empty. */
  predicate InLane(x: int, p: Path, windowWidth: int) {
    if XMin(p) <= XMax(p, windowWidth) then XMin(p) <= x <= XMax(p, windowWidth)
    else x == windowWidth / 2
  }

  /** `Path.get_next_x`: a random x in the clamped range; the screen
      centre, without drawing, when the range is empty. */
  function GetNextX(p: Path, windowWidth: int, g: Rng): (r: Drawn<int>)
    ensures InLane(r.value, p, windowWidth)
    ensures XMin(p) <= XMax(p, windowWidth) ==>
              0 <= r.value <= windowWidth - Platforms.MaxWidth && r.rest == g.Tail()
    ensures XMin(p) > XMax(p, windowWidth) ==> r.value == windowWidth / 2 && r.rest == g
  {
    var lo := XMin(p);
    var hi := XMax(p, windowWidth);
    if lo > hi then Drawn(windowWidth / 2, g)
    else RandInt(g, lo, hi)
  }

  /** Every x of a non-empty clamped range is a possible `get_next_x`. */
  lemma GetNextXReachesRange(p: Path, windowWidth: int, x: int)
    requires XMin(p) <= x <= XMax(p, windowWidth)
    ensures GetNextX(p, windowWidth, Forcing(x, 0.0)).value == x
  {
  }

  /** The manager's state; `platformSpacing` and `minPathDistance` are
      stored by the source but never read. */
  datatype PathManager = PathManager(
    windowWidth: int,
    platformSpacing: real,
    paths: seq<Path>,
    minPathDistance: int,
    difficulty: real)

  /** `PathManager(window_width, platform_spacing)`: no lanes yet, difficulty 1. */
  function NewPathManager(windowWidth: int, platformSpacing: real): (m: PathManager)
    ensures |m.paths| == 0 && m.difficulty == 1.0 && m.windowWidth == windowWidth
  {
    PathManager(windowWidth, platformSpacing, [], MinPathDistance, 1.0)
  }

  /** Every lane can produce platforms and fades them in positive time,
      and there is at least one lane. */
  predicate Live(m: PathManager) {
    |m.paths| >= 1 && forall i :: 0 <= i < |m.paths| ==> m.paths[i].isViable && m.paths[i].fadeTime > 0.0
  }

  /** `initialize_path`: exactly one lane, centred, jitter 100, default difficulty. */
  function InitializePath(m: PathManager): (r: PathManager)
    ensures r.paths == [Path(m.windowWidth / 2, InitialVariation, true, 1.0, PathFadeTime)]
    ensures r == m.(paths := r.paths)
    ensures Live(r)
  {
    m.(paths := [NewPath(m.windowWidth / 2, InitialVariation, 1.0)])
  }

  /** The difficulty `update_difficulty` sets for a height: one plus one
      per 2000 units climbed, capped at two. */
  function Difficulty(height: real): (d: real)
    ensures 1.0 <= d <= MaxDifficulty
    ensures d == MaxDifficulty <==> AbsReal(height) >= DifficultyScale
    ensures AbsReal(height) < DifficultyScale ==> d == 1.0 + AbsReal(height) / DifficultyScale
  {
    MinReal(MaxDifficulty, 1.0 + AbsReal(height) / DifficultyScale)
  }

  /** Climbing further never makes the game easier. */
  lemma DifficultyMonotone(h1: real, h2: real)
    requires AbsReal(h1) <= AbsReal(h2)
    ensures Difficulty(h1) <= Difficulty(h2)
  {
  }

  /** `update_difficulty`. */
  function UpdateDifficulty(m: PathManager, height: real): (r: PathManager)
    ensures 1.0 <= r.difficulty <= MaxDifficulty
    ensures r.difficulty == Difficulty(height)
    ensures r.paths == m.paths && r.windowWidth == m.windowWidth
  {
    m.(difficulty := Difficulty(height))
  }

  /** `should_split`: only a single lane can split; the roll is drawn only then. */
  function ShouldSplit(m: PathManager, g: Rng): (r: Drawn<bool>)
    ensures r.value ==> |m.paths| == 1
    ensures |m.paths| != 1 ==> r.rest == g
    ensures |m.paths| == 1 ==> r.rest == g.Tail()
    ensures |m.paths| == 1 && 0.0 <= g.Head().u < 1.0 ==> (r.value <==> g.Head().u < SplitChance * m.difficulty)
  {
    if |m.paths| == 1 then
      var roll := Random01(g);
      Drawn(roll.value < SplitChance * m.difficulty, roll.rest)
    else Drawn(false, g)
  }

  /** The split chance grows with difficulty: the same roll that splits
      at a lower difficulty also splits at a higher one. */
  lemma ShouldSplitMonotone(m: PathManager, d: real, g: Rng)
    requires m.difficulty <= d
    requires ShouldSplit(m, g).value
    ensures ShouldSplit(m.(difficulty := d), g).value
  {
  }

  /** The two lanes a split produces: at the quarter and three-quarter
      marks, each with jitter 50. */
  function SplitPair(m: PathManager): seq<Path> {
    [NewPath(m.windowWidth / 4, SplitVariation, m.difficulty),
     NewPath((m.windowWidth * 3) / 4, SplitVariation, m.difficulty)]
  }

  /** `split_paths`: one lane becomes two; any other number of lanes is left alone. */
  function SplitPaths(m: PathManager): (r: PathManager)
    ensures |m.paths| != 1 ==> r == m
    ensures |m.paths| == 1 ==>
              && |r.paths| == 2
              && r.paths[0].baseX == m.windowWidth / 4 && r.paths[1].baseX == (m.windowWidth * 3) / 4
              && r.paths[0].variation == SplitVariation && r.paths[1].variation == SplitVariation
    ensures r == m.(paths := r.paths)
    ensures Live(m) ==> Live(r)
  {
    if |m.paths| != 1 then m
    else m.(paths := SplitPair(m))
  }

  /** The lanes that may produce platforms, in order. */
  function Viable(paths: seq<Path>): (v: seq<Path>)
    ensures |v| <= |paths|
    ensures (forall i :: 0 <= i < |paths| ==> paths[i].isViable) ==> v == paths
  {
    if |paths| == 0 then []
    else if paths[0].isViable then [paths[0]] + Viable(paths[1..])
    else Viable(paths[1..])
  }

  /** One placement request: `{'x', 'y', 'difficulty', 'fade_time'}`. */
  datatype Position = Position(x: int, y: real, difficulty: real, fadeTime: real)

  /** The record for the i-th viable lane at height `y`. */
  predicate Describes(pos: Position, p: Path, windowWidth: int, y: real, difficulty: real) {
    InLane(pos.x, p, windowWidth) && pos.y == y && pos.difficulty == difficulty && pos.fadeTime == p.fadeTime
  }

  /** The loop of `get_platform_positions`: one record per viable lane, in lane order. */
  function Placements(paths: seq<Path>, windowWidth: int, y: real, difficulty: real, g: Rng): (r: Drawn<seq<Position>>)
    ensures |r.value| == |Viable(paths)|
    ensures forall i :: 0 <= i < |r.value| ==> Describes(r.value[i], Viable(paths)[i], windowWidth, y, difficulty)
  {
    if |paths| == 0 then Drawn([], g)
    else if paths[0].isViable then
      var x := GetNextX(paths[0], windowWidth, g);
      var more := Placements(paths[1..], windowWidth, y, difficulty, x.rest);
      Drawn([Position(x.value, y, difficulty, paths[0].fadeTime)] + more.value, more.rest)
    else Placements(paths[1..], windowWidth, y, difficulty, g)
  }

  /** What `get_platform_positions` returns, with the manager it leaves. */
  datatype Generated = Generated(manager: PathManager, positions: seq<Position>, rest: Rng)

  /** `get_platform_positions(height)`: update the difficulty, maybe split
      (only above height -500, and then only if the roll succeeds), then
      place one platform per viable lane. */
  function GetPlatformPositions(m: PathManager, height: real, g: Rng): (r: Generated)
    ensures r.manager.difficulty == Difficulty(height)
    ensures r.manager == m.(difficulty := r.manager.difficulty, paths := r.manager.paths)
    ensures r.manager.paths == m.paths || (|m.paths| == 1 && height < SplitHeight && |r.manager.paths| == 2)
    ensures height >= SplitHeight ==> r.manager.paths == m.paths && r.rest == Placements(m.paths, m.windowWidth, height, r.manager.difficulty, g).rest
    ensures r.manager.paths != m.paths ==> r.manager.paths == SplitPair(UpdateDifficulty(m, height))
    ensures height < SplitHeight && |m.paths| == 1 ==>
              (r.manager.paths != m.paths <==> ShouldSplit(UpdateDifficulty(m, height), g).value)
    ensures |r.positions| == |Viable(r.manager.paths)|
    ensures forall i :: 0 <= i < |r.positions| ==>
              Describes(r.positions[i], Viable(r.manager.paths)[i], m.windowWidth, height, r.manager.difficulty)
    ensures Live(m) ==> Live(r.manager) && |r.positions| == |r.manager.paths| >= 1
  {
    var m1 := UpdateDifficulty(m, height);
    var split := if height < SplitHeight then ShouldSplit(m1, g) else Drawn(false, g);
    var m2 := if split.value then SplitPaths(m1) else m1;
    var placed := Placements(m2.paths, m2.windowWidth, height, m2.difficulty, split.rest);
    Generated(m2, placed.value, placed.rest)
  }

  /** `cleanup`: with several lanes, a 10% roll resets to one centred lane
      of jitter 150; otherwise nothing changes and nothing is drawn. */
  function Cleanup(m: PathManager, minHeight: real, g: Rng): (r: Drawn<PathManager>)
    ensures r.value == m || (|m.paths| > 1 && r.value == m.(paths := [NewPath(m.windowWidth / 2, ResetVariation, m.difficulty)]))
    ensures |m.paths| >= 1 ==> |r.value.paths| >= 1
    ensures |m.paths| <= 1 ==> r.value == m && r.rest == g
    ensures |m.paths| > 1 ==>
              && r.rest == Random01(g).rest
              && (|r.value.paths| == 1 <==> Random01(g).value < ResetChance)
    ensures Live(m) ==> Live(r.value)
  {
    if |m.paths| > 1 then
      var roll := Random01(g);
      Drawn(if roll.value < ResetChance then m.(paths := [NewPath(m.windowWidth / 2, ResetVariation, m.difficulty)]) else m,
            roll.rest)
    else Drawn(m, g)
  }

  /** The calls the game makes on its path manager. */
  datatype PathCall = Initialize | Split | Positions(height: real) | CleanUp(minHeight: real)

  function Apply(m: PathManager, call: PathCall, g: Rng): Drawn<PathManager> {
    match call
    case Initialize => Drawn(InitializePath(m), g)
    case Split => Drawn(SplitPaths(m), g)
    case Positions(h) => var r := GetPlatformPositions(m, h, g); Drawn(r.manager, r.rest)
    case CleanUp(h) => Cleanup(m, h, g)
  }

  function ApplyAll(m: PathManager, calls: seq<PathCall>, g: Rng): PathManager
    decreases |calls|
  {
    if |calls| == 0 then m
    else
      var r := Apply(m, calls[0], g);
      ApplyAll(r.value, calls[1..], r.rest)
  }

  /** Once initialised, the manager never runs out of lanes: after any
      sequence of calls that starts with `initialize_path`, there is at
      least one lane, every lane is viable, and platforms keep coming. */
  lemma {:induction false} AlwaysLive(m: PathManager, calls: seq<PathCall>, g: Rng)
    requires Live(m) || (|calls| > 0 && calls[0] == Initialize)
    ensures Live(ApplyAll(m, calls, g))
    decreases |calls|
  {
    if |calls| > 0 {
      var r := Apply(m, calls[0], g);
      assert Live(r.value);
      AlwaysLive(r.value, calls[1..], r.rest);
    }
  }

  /** A fresh manager asked for positions at height -600 with a roll that
      succeeds splits and yields one platform in each new lane: around
      the quarter mark and around the three-quarter mark. */
  lemma SplitScenario(xLeft: int, xRight: int)
    ensures var m := InitializePath(NewPathManager(800, 180.0));
            var r := GetPlatformPositions(m, -600.0, Rng([Sample(0, 0.0), Sample(xLeft, 0.0), Sample(xRight, 0.0)]));
            && |r.positions| == 2
            && 150 <= r.positions[0].x <= 250
            && 550 <= r.positions[1].x <= 650
            && (150 <= xLeft <= 250 ==> r.positions[0].x == xLeft)
            && (550 <= xRight <= 650 ==> r.positions[1].x == xRight)
  {
    var m := InitializePath(NewPathManager(800, 180.0));
    var g := Rng([Sample(0, 0.0), Sample(xLeft, 0.0), Sample(xRight, 0.0)]);
    var m1 := UpdateDifficulty(m, -600.0);
    assert ShouldSplit(m1, g).value;
    var m2 := SplitPaths(m1);
    assert m2.paths == SplitPair(m1);
    assert Viable(m2.paths) == m2.paths;
    var r := GetPlatformPositions(m, -600.0, g);
    assert r.manager.paths == m2.paths;
    assert XMin(m2.paths[0]) == 150 && XMax(m2.paths[0], 800) == 250;
    assert XMin(m2.paths[1]) == 550 && XMax(m2.paths[1], 800) == 650;
    var g1 := ShouldSplit(m1, g).rest;
    assert g1.Head() == Sample(xLeft, 0.0);
    assert g1.Tail().Head() == Sample(xRight, 0.0);
    var x0 := GetNextX(m2.paths[0], 800, g1);
    var more := Placements(m2.paths[1..], 800, -600.0, m2.difficulty, x0.rest);
    assert Placements(m2.paths, 800, -600.0, m2.difficulty, g1).value
           == [Position(x0.value, -600.0, m2.difficulty, PathFadeTime)] + more.value;
    assert more.value[0].x == GetNextX(m2.paths[1], 800, g1.Tail()).value;
  }
}

=== FILE: platform.dfy ===
/** One platform: its size, its back-and-forth motion, and the fade that
    follows the first bounce on it.

    The clock is a parameter: `OnCollision` records the reading `now` as
    the fade's start, and `Update` measures elapsed time against it.
    Colours, surfaces and the direction arrow belong to rendering. */
module Platforms {
  import opened Common
  import opened Random

  const MinWidth: int := 60
  const MaxWidth: int := 100
  const DefaultHeight: int := 20
  const MovingPrefix: string := "moving_"
  const FullAlpha: real := 255.0
  const MovingFade: real := 1.5
  const StillFade: real := 2.0

  datatype Platform = Platform(
    x: real,
    y: real,
    width: real,
    height: int,
    startX: real,
    platformType: string,
    isMoving: bool,
    moveSpeed: real,
    moveRange: real,
    direction: int,
    fadeDuration: real,
    active: bool,
    disappearTimer: Option<real>,
    alpha: real)
  {
    /** The pygame rectangle, kept in step with (x, y) by every update. */
    function Rect(): Rect {
      Common.Rect(Trunc(x), Trunc(y), Trunc(width), height)
    }
  }

  predicate StartsWith(s: string, prefix: string) {
    |prefix| <= |s| && s[..|prefix|] == prefix
  }

  /** The SPEEDS table, with `.get`'s default of 2.5. */
  function BaseSpeed(platformType: string): real {
    if platformType == "moving_slow" then 1.5
    else if platformType == "moving_medium" then 2.5
    else if platformType == "moving_fast" then 3.5
    else 2.5
  }

  /** The RANGES table, with `.get`'s default of 70. */
  function BaseRange(platformType: string): real {
    if platformType == "moving_slow" then 50.0
    else if platformType == "moving_medium" then 70.0
    else if platformType == "moving_fast" then 90.0
    else 70.0
  }

  /** `max(MIN_WIDTH, min(MAX_WIDTH, w))`. */
  function ClampWidth(w: real): (r: real)
    ensures MinWidth as real <= r <= MaxWidth as real
    ensures MinWidth as real <= w <= MaxWidth as real ==> r == w
  {
    MaxReal(MinWidth as real, MinReal(MaxWidth as real, w))
  }

  /** `Platform(x, y, difficulty, width, platform_type)`. Draws, in order:
      the width jitter (only when no width is given), then the speed
      jitter and the range jitter (only for a moving type). */
  function NewPlatform(x: real, y: real, difficulty: real, width: Option<real>, platformType: string, g: Rng): (r: Drawn<Platform>)
    ensures width.Some? ==> r.value.width == width.value
    ensures width.None? ==> MinWidth as real <= r.value.width <= MaxWidth as real
    ensures r.value.isMoving <==> StartsWith(platformType, MovingPrefix)
    ensures !r.value.isMoving ==> r.value.moveSpeed == 0.0 && r.value.moveRange == 0.0
    ensures r.value.isMoving ==>
              BaseSpeed(platformType) - 0.25 + difficulty * 0.5 <= r.value.moveSpeed < BaseSpeed(platformType) + 0.25 + difficulty * 0.5
    ensures r.value.isMoving ==>
              BaseRange(platformType) - 10.0 + difficulty * 10.0 <= r.value.moveRange <= BaseRange(platformType) + 10.0 + difficulty * 10.0
    ensures r.value.fadeDuration == if r.value.isMoving then MovingFade else StillFade
    ensures Fresh(r.value)
    ensures r.value.x == x && r.value.startX == x && r.value.y == y && r.value.platformType == platformType
    ensures r.value.height == DefaultHeight
    ensures width.Some? && !r.value.isMoving ==> r.rest == g
  {
    var wd := if width.None? then RandInt(g, -10, 10) else Drawn(0, g);
    var w := if width.None? then ClampWidth(MaxWidth as real - difficulty * 15.0 + wd.value as real) else width.value;
    var moving := StartsWith(platformType, MovingPrefix);
    var su := if moving then Random01(wd.rest) else Drawn(0.0, wd.rest);
    var rv := if moving then RandInt(su.rest, -10, 10) else Drawn(0, su.rest);
    var speed := if moving then BaseSpeed(platformType) + (su.value * 0.5 - 0.25) + difficulty * 0.5 else 0.0;
    var range := if moving then BaseRange(platformType) + rv.value as real + difficulty * 10.0 else 0.0;
    Drawn(Platform(x, y, w, DefaultHeight, x, platformType, moving, speed, range, 1,
                   if moving then MovingFade else StillFade, true, None, FullAlpha),
          rv.rest)
  }

  /** A platform as constructed: active, not fading, opaque, heading right. */
  predicate Fresh(p: Platform) {
    p.active && p.disappearTimer.None? && p.alpha == FullAlpha && p.direction == 1
  }

  /** With no width given, the width is the difficulty-shrunk base plus
      the drawn jitter, clamped to [60, 100]. */
  lemma WidthFromDraw(x: real, y: real, difficulty: real, platformType: string, g: Rng)
    requires -10 <= g.Head().n <= 10
    ensures NewPlatform(x, y, difficulty, None, platformType, g).value.width
            == ClampWidth(100.0 - 15.0 * difficulty + g.Head().n as real)
  {
  }

  /** `on_collision`: starts the fade clock, but only on an active
      platform whose clock has not started yet. */
  function OnCollision(p: Platform, now: real): (r: Platform)
    ensures r.disappearTimer.Some? <==> p.disappearTimer.Some? || p.active
    ensures p.disappearTimer.Some? ==> r.disappearTimer == p.disappearTimer
    ensures p.active && p.disappearTimer.None? ==> r.disappearTimer == Some(now)
    ensures r == p.(disappearTimer := r.disappearTimer)
  {
    if p.active && p.disappearTimer.None? then p.(disappearTimer := Some(now)) else p
  }

  /** A second bounce changes nothing: the fade keeps its first start time. */
  lemma OnCollisionIdempotent(p: Platform, first: real, second: real)
    ensures OnCollision(OnCollision(p, first), second) == OnCollision(p, first)
  {
  }

  /** The horizontal step of `update`: move by speed in the current
      direction, and turn round once past the range. */
  function Step(p: Platform): Platform {
    var x' := p.x + p.moveSpeed * p.direction as real;
    p.(x := x', direction := if AbsReal(x' - p.startX) > p.moveRange then -p.direction else p.direction)
  }

  /** `update`, with `now` the clock reading. Python divides by the fade
      duration, so a zero duration is excluded. */
  function Update(p: Platform, now: real): (r: Platform)
    requires p.fadeDuration != 0.0
    ensures p.isMoving && p.active ==>
              r.x == p.x + p.moveSpeed * p.direction as real
              && (AbsReal(r.x - p.startX) > p.moveRange ==> r.direction == -p.direction)
              && (AbsReal(r.x - p.startX) <= p.moveRange ==> r.direction == p.direction)
    ensures !(p.isMoving && p.active) ==> r.x == p.x && r.direction == p.direction
    ensures (p.direction == 1 || p.direction == -1) ==> (r.direction == 1 || r.direction == -1)
    ensures p.disappearTimer.None? ==> r.active == p.active && r.alpha == p.alpha
    ensures p.disappearTimer.Some? && now - p.disappearTimer.value >= p.fadeDuration ==> !r.active && r.alpha == p.alpha
    ensures p.disappearTimer.Some? && now - p.disappearTimer.value < p.fadeDuration ==>
              r.active == p.active
              && r.alpha == FullAlpha * (1.0 - (now - p.disappearTimer.value) / p.fadeDuration)
    ensures p.disappearTimer.Some? && 0.0 <= now - p.disappearTimer.value < p.fadeDuration && p.fadeDuration > 0.0 ==>
              0.0 < r.alpha <= FullAlpha
    ensures !p.active ==> !r.active
    ensures r.y == p.y && r.width == p.width && r.startX == p.startX && r.fadeDuration == p.fadeDuration
    ensures r.disappearTimer == p.disappearTimer && r.isMoving == p.isMoving
    ensures r.moveSpeed == p.moveSpeed && r.moveRange == p.moveRange && r.platformType == p.platformType
    ensures r.height == p.height
  {
    var moved := if p.isMoving && p.active then Step(p) else p;
    match moved.disappearTimer
    case None => moved
    case Some(start) =>
      var elapsed := now - start;
      if elapsed >= moved.fadeDuration then moved.(active := false)
      else
        FadeBounds(elapsed, moved.fadeDuration);
        moved.(alpha := FullAlpha * (1.0 - elapsed / moved.fadeDuration))
  }

  lemma FadeBounds(elapsed: real, duration: real)
    requires duration != 0.0
    ensures 0.0 <= elapsed < duration ==> 0.0 < FullAlpha * (1.0 - elapsed / duration) <= FullAlpha
  {
    if 0.0 <= elapsed < duration {
      FractionBelowOne(elapsed, duration);
    }
  }

  /** `cleanup`: the platform is switched off; nothing else it models changes. */
  function Cleanup(p: Platform): (r: Platform)
    ensures !r.active
    ensures r.(active := p.active) == p
  {
    p.(active := false)
  }

  /** Where a moving platform may be: within one step of its range, and
      when outside the range it is already heading back. */
  predicate MotionBounded(p: Platform) {
    && p.moveRange >= 0.0
    && p.moveSpeed >= 0.0
    && (p.direction == 1 || p.direction == -1)
    && AbsReal(p.x - p.startX) <= p.moveRange + p.moveSpeed
    && (AbsReal(p.x - p.startX) > p.moveRange ==> (p.x - p.startX) * p.direction as real < 0.0)
  }

  /** Motion never carries a platform more than one step beyond its range:
      the bound holds of every platform `update` produces from one where
      it held. */
  lemma UpdateKeepsMotionBounded(p: Platform, now: real)
    requires p.fadeDuration != 0.0
    requires MotionBounded(p)
    ensures MotionBounded(Update(p, now))
  {
  }

  /** A freshly built moving platform starts at its origin, so within bounds,
      whenever the difficulty is not negative. */
  lemma NewPlatformMotionBounded(x: real, y: real, difficulty: real, width: Option<real>, platformType: string, g: Rng)
    requires difficulty >= 0.0
    ensures MotionBounded(NewPlatform(x, y, difficulty, width, platformType, g).value)
  {
  }
}

=== FILE: player.dfy ===
/** The player's physics: gravity, a fixed jump impulse, horizontal
    wrap-around on an 800-pixel screen, and first-match bouncing on
    platforms. */
module Players {
  import opened Common
  import Platforms

  const Width: int := 40
  const Height: int := 40
  const Speed: real := 5.0
  const Gravity: real := 0.5
  const JumpForce: real := -15.0
  /** `update` wraps against a hard-coded 800-pixel screen. */
  const ScreenWidth: int := 800
  const RightEdge: real := (ScreenWidth - Width) as real

  datatype Player = Player(x: real, y: real, velocityX: real, velocityY: real) {
    /** The pygame rectangle, kept in step with (x, y) by every update. */
    function Rect(): Rect {
      Common.Rect(Trunc(x), Trunc(y), Width, Height)
    }
  }

  /** `Player(x, y)`: at rest. */
  function NewPlayer(x: int, y: int): (p: Player)
    ensures p.velocityX == 0.0 && p.velocityY == 0.0
    ensures p.Rect() == Common.Rect(x, y, Width, Height)
  {
    TruncOfInt(x);
    TruncOfInt(y);
    Player(x as real, y as real, 0.0, 0.0)
  }

  /** `move(direction)`: sets the horizontal speed for the next update;
      the player does not move yet. */
  function Move(p: Player, direction: int): (r: Player)
    ensures r.velocityX == Speed * direction as real
    ensures r.x == p.x && r.y == p.y && r.velocityY == p.velocityY
  {
    p.(velocityX := direction as real * Speed)
  }

  /** `update`: gravity first, then motion, then the horizontal wrap:
      off the left edge reappears at the right, past the right edge
      reappears at 0. */
  function Update(p: Player): (r: Player)
    ensures r.velocityY == p.velocityY + Gravity
    ensures r.y == p.y + r.velocityY
    ensures r.velocityX == p.velocityX
    ensures 0.0 <= r.x <= RightEdge
    ensures p.x + p.velocityX < 0.0 ==> r.x == RightEdge
    ensures p.x + p.velocityX > RightEdge ==> r.x == 0.0
    ensures 0.0 <= p.x + p.velocityX <= RightEdge ==> r.x == p.x + p.velocityX
  {
    var vy := p.velocityY + Gravity;
    var x := p.x + p.velocityX;
    var y := p.y + vy;
    var wrapped := if x < 0.0 then RightEdge else if x > RightEdge then 0.0 else x;
    Player(wrapped, y, p.velocityX, vy)
  }

  /** `jump`: the vertical speed becomes the jump impulse, whatever it was. */
  function Jump(p: Player): (r: Player)
    ensures r.velocityY == JumpForce
    ensures r.x == p.x && r.y == p.y && r.velocityX == p.velocityX
  {
    p.(velocityY := JumpForce)
  }

  /** The test of `check_platform_collision`: falling, with the bottom edge
      inside the platform's vertical extent and the horizontal extents
      touching (all comparisons inclusive). `active` is not consulted. */
  predicate Lands(p: Player, q: Platforms.Platform) {
    var pr := p.Rect();
    var qr := q.Rect();
    && p.velocityY > 0.0
    && pr.Bottom() >= qr.top
    && pr.Bottom() <= qr.Bottom()
    && pr.Right() >= qr.left
    && pr.left <= qr.Right()
  }

  /** The first platform from `from` on that the player lands on, or |ps|. */
  function FirstLanding(p: Player, ps: seq<Platforms.Platform>, from: nat): (k: nat)
    requires from <= |ps|
    ensures from <= k <= |ps|
    ensures forall j :: from <= j < k ==> !Lands(p, ps[j])
    ensures k < |ps| ==> Lands(p, ps[k])
    decreases |ps| - from
  {
    if from == |ps| then from
    else if Lands(p, ps[from]) then from
    else FirstLanding(p, ps, from + 1)
  }

  datatype Collision = Collision(hit: bool, player: Player, platforms: seq<Platforms.Platform>)

  /** `check_platform_collision`: scan in list order; on the first
      platform landed on, bounce and start that platform's fade, then stop. */
  function CheckPlatformCollision(p: Player, ps: seq<Platforms.Platform>, now: real): (r: Collision)
    ensures r.hit <==> exists j :: 0 <= j < |ps| && Lands(p, ps[j])
    ensures r.hit ==>
              var k := FirstLanding(p, ps, 0);
              && k < |ps|
              && (forall j :: 0 <= j < k ==> !Lands(p, ps[j]))
              && r.platforms == ps[k := Platforms.OnCollision(ps[k], now)]
              && r.player == Jump(p)
    ensures !r.hit ==> r.player == p && r.platforms == ps
  {
    var k := FirstLanding(p, ps, 0);
    if k < |ps| then Collision(true, Jump(p), ps[k := Platforms.OnCollision(ps[k], now)])
    else Collision(false, p, ps)
  }

  /** `n` updates with nothing to land on. */
  function Fly(p: Player, n: nat): Player
    decreases n
  {
    if n == 0 then p else Fly(Update(p), n - 1)
  }

  /** Height and vertical speed after `n` free updates, in closed form. */
  lemma {:induction false} FlyHeight(p: Player, n: nat)
    ensures Fly(p, n).y == p.y + n as real * p.velocityY + Gravity * (n * (n + 1)) as real / 2.0
    ensures Fly(p, n).velocityY == p.velocityY + Gravity * n as real
    decreases n
  {
    if n > 0 {
      var q := Update(p);
      FlyHeight(q, n - 1);
      assert Fly(p, n) == Fly(q, n - 1);
      var m := n - 1;
      assert q.velocityY == p.velocityY + Gravity;
      assert q.y == p.y + p.velocityY + Gravity;
      assert Fly(p, n).y == q.y + m as real * q.velocityY + Gravity * (m * (m + 1)) as real / 2.0;
      assert (n * (n + 1)) == (m * (m + 1)) + 2 * n;
    }
  }

  /** A jump lifts the player by at most 217.5 units: it never gets
      higher than that above where it jumped, and it is exactly that high
      30 updates later. */
  lemma JumpApex(p: Player, n: nat)
    ensures Fly(Jump(p), n).y >= p.y - 217.5
    ensures Fly(Jump(p), 30).y == p.y - 217.5
  {
    var j := Jump(p);
    FlyHeight(j, n);
    FlyHeight(j, 30);
    var q := n * (n + 1);
    ApexArith(n);
    assert Fly(j, n).y == p.y - 15.0 * n as real + 0.25 * q as real;
  }

  /** The integer inequality behind the apex: n(n+1) - 60n + 870, that is
      (n - 29)(n - 30), is never negative. */
  lemma ApexArith(n: int)
    ensures n * (n + 1) - 60 * n + 870 >= 0
  {
  }
}

=== FILE: random.dfy ===
/** The process-wide random generator, made explicit.

    The game draws from Python's `random` module: `randint(lo, hi)` for
    jitter and `random()` for probability rolls. Here the generator is a
    value: a stream of samples consumed front-first, one sample per call,
    so the ORDER in which the game draws is part of the model. A stream
    that has run dry keeps yielding `Sample(0, 0.0)`. */
module Random {

  /** One output of the generator: `n` is what randint reads, `u` what random() reads. */
  datatype Sample = Sample(n: int, u: real)

  /** The generator's remaining outputs. */
  datatype Rng = Rng(samples: seq<Sample>) {

    function Head(): Sample {
      if |samples| == 0 then Sample(0, 0.0) else samples[0]
    }

    function Tail(): Rng {
      if |samples| == 0 then this else Rng(samples[1..])
    }
  }

  /** A drawn value together with the generator left after drawing it. */
  datatype Drawn<+T> = Drawn(value: T, rest: Rng)

  /** `random.randint(lo, hi)`: an integer in the closed range; a sample
      outside the range is folded onto the nearer end, so that every
      stream is a legal one and every value of the range is reachable. */
  function RandInt(g: Rng, lo: int, hi: int): (r: Drawn<int>)
    requires lo <= hi
    ensures lo <= r.value <= hi
    ensures lo <= g.Head().n <= hi ==> r.value == g.Head().n
    ensures r.rest == g.Tail()
  {
    var n := g.Head().n;
    Drawn(if n < lo then lo else if n > hi then hi else n, g.Tail())
  }

  /** `random.random()`: a real in [0, 1); a sample outside reads as 0.0. */
  function Random01(g: Rng): (r: Drawn<real>)
    ensures 0.0 <= r.value < 1.0
    ensures 0.0 <= g.Head().u < 1.0 ==> r.value == g.Head().u
    ensures r.rest == g.Tail()
  {
    var u := g.Head().u;
    Drawn(if 0.0 <= u < 1.0 then u else 0.0, g.Tail())
  }

  /** A generator whose next sample is `n` makes randint return `n`. */
  function Forcing(n: int, u: real): Rng {
    Rng([Sample(n, u)])
  }

  /** Every value of randint's range is the result of some stream. */
  lemma RandIntReachesEveryValue(lo: int, hi: int, v: int)
    requires lo <= v <= hi
    ensures RandInt(Forcing(v, 0.0), lo, hi).value == v
  {
  }
}
